=== FILE: README.md ===
# ftldat2 archive codec in Dafny

ftldat2 packs and unpacks the `.dat` archives of the game FTL. An archive
holds a list of file entries. Each entry has a `/`-separated path and the
file's bytes. The archive also declares an index size. The file layout is:

- a little-endian unsigned 32-bit slot count `N`;
- `N` offset slots of the same width, where 0 marks an empty slot;
- one record per entry, with no padding, each made of `contentLength`,
  `pathLength`, the UTF-8 path bytes and the contents.

The `FTLPack` object holds the entry list and the index size. Four
operations change or read that state:

- `load` fills it from an archive file;
- `save` writes it out as an archive;
- `construct` fills it from a directory tree;
- `destruct` writes the entries back out as files.

The model has these modules:

- `Bytes` holds bytes and the `<L` integer packing.
- `Utf8` holds a strict UTF-8 encoder and decoder, standing for `str.encode()` and `bytes.decode()`.
- `Entries` holds `FileEntry` and its `size`.
- `AsciiAgreement` shows that both ways of counting a path save the same bytes for ASCII paths.
- `Codec` holds the byte layout and `load`'s slot walk as pure functions.
- `CodecLemmas` holds what `save` writes, what `load` reads back, and the round trip.
- `LoadLemmas` holds what `load` makes of any file: the slots it skips, the entries it appends and the error it raises.
- `Paths` and `Tree` hold the path mapping and the entry lists of `construct` and `destruct`.
- `Pack` holds the `FTLPack` class. Its methods mutate `index` and `indexSize` the way the source does, and each is proved equal to the pure functions.
- `Scenarios` holds worked byte-by-byte examples: the empty archive, a two-entry archive, and a file whose last path is cut short.

The source uses the character count of a path (`len(path)`) in two
places: the entry size and the written `pathLength`. It writes the path's
UTF-8 bytes, though. So the layout is parametrised by `PathCount`:

- `CharCount` is the source as written;
- `ByteCount` counts the encoded bytes.

The round trip is proved once for every archive whose declared path
lengths match the bytes written. That covers every archive under
`ByteCount`, and exactly the ASCII-path archives under `CharCount`.
On a non-ASCII path the as-written round trip breaks in one of two ways (see Findings): `load` raises, or it silently returns a different entry. The `FTLPack` class
therefore saves with the corrected `ByteCount`; the as-written behaviour
remains in `Codec.Save` with `CharCount`. On ASCII paths the two write
the same bytes (`AsciiAgreement.AsciiSavesAgree`).

`load` follows Python's file and `struct` semantics:

- A short read where `struct.unpack` needs 4 or 8 bytes fails with `Truncated`.
- A path or contents read cut short by the end of the file is silently truncated, as Python's `f.read(n)` is, rather than failing.
- A path that is not valid UTF-8 fails with `InvalidPath`.

## Model

| member | source | states |
|---|---|---|
| Bytes.UnpackPack | ftldat2/__init__.py:96-99 | unpacking the four bytes `struct.pack('<L', n)` writes gives back `n` |
| Bytes.PackUnpack | ftldat2/__init__.py:119-122 | any four bytes are the packing of the value they hold, so packing is a bijection onto 4-byte strings |
| Utf8.DecodeEncode | ftldat2/__init__.py:104 | decoding the UTF-8 encoding of any string gives the string back |
| Utf8.EncodeDecode | ftldat2/__init__.py:104 | whatever bytes `decode()` accepts are exactly the encoding of the string it returns |
| Utf8.EncodeLength | ftldat2/__init__.py:127-128 | a string's encoding has as many bytes as it has characters exactly when the string is ASCII, and then each byte is the character's code |
| Entries.FileEntry.Size | ftldat2/__init__.py:59 | `size` is the two length fields plus the path's characters plus the contents; what that means for the file is stated by `Codec.RecordSize` (the room `save` gives the record) and `CodecLemmas.SizeIsRecordLength` (it is the written record's length exactly for an ASCII path) |
| Codec.RecordSize | ftldat2/__init__.py:123 | under the source's character count, the room `save` gives a record is the entry's size |
| Codec.Layout | ftldat2/__init__.py:119-129 | the bytes `save` writes hold at least the `4 + 4n`-byte index region and start with the index size; `CodecLemmas.LayoutSlot` and `CodecLemmas.LayoutRecord` place each slot and record |
| Codec.Save | ftldat2/__init__.py:115-129 | `save` raises `IndexTooSmall(count, indexSize)` exactly when there are more entries than slots, before any output, and it succeeds exactly when that check passes and every packed integer fits 32 bits |
| Codec.Read | ftldat2/__init__.py:99-105 | `f.seek(pos); f.read(count)` returns at most `count` bytes: exactly the bytes at `pos..pos+count` when the file is long enough, otherwise the rest of the file from `pos`, or nothing when `pos` is past the end; a full `count` bytes only when the file is long enough |
| Codec.DecodeSlot | ftldat2/__init__.py:98-100 | a slot the file does not fully hold fails with `Truncated`; a slot is skipped as empty exactly when the file holds four zero bytes there |
| Codec.DecodeRecord | ftldat2/__init__.py:101-106 | a record never reads as an empty slot; it fails with `Truncated` exactly when fewer than 8 bytes follow its offset, and otherwise with `InvalidPath` exactly when the `pathLength` bytes read after the lengths are not valid UTF-8 |
| Codec.SlotsOf | ftldat2/__init__.py:97 | the slots `0 .. k-1` are decoded in ascending order, slot `i` at position `i` |
| Codec.Walk | ftldat2/__init__.py:97-106 | the slot loop appends at most one entry per slot; `LoadLemmas.WalkFails` (it fails exactly when some slot fails), `LoadLemmas.WalkClean` (otherwise it yields the found entries in slot order, skipping empty slots) and `LoadLemmas.WalkFirstBad` (the first failing slot decides the error) give its meaning |
| Codec.Load | ftldat2/__init__.py:94-106 | a file shorter than four bytes fails with `Truncated`; a successful `load` takes the index size from the first four bytes and holds no more entries than that |
| LoadLemmas.FoundEntriesAt | ftldat2/__init__.py:97-106 | the record of slot `i` is the entry numbered by the count of records in the slots before `i`, so entries follow ascending slot order, one per record |
| LoadLemmas.WalkFails | ftldat2/__init__.py:97-106 | the slot walk fails exactly when some slot fails |
| LoadLemmas.WalkClean | ftldat2/__init__.py:97-106 | a walk with no failing slot appends the entry of every record, in slot order, and skips the empty slots |
| LoadLemmas.WalkFirstBad | ftldat2/__init__.py:97-106 | the first failing slot ends the walk with its error, after the entries of the records before it |
| LoadLemmas.LoadSucceeds | ftldat2/__init__.py:94-106 | a file of at least four bytes loads exactly when none of the header's `n` slots fails, and then loads as index size `n` with the entries of its records in ascending slot order, every zero slot skipped |
| LoadLemmas.LoadFailsAt | ftldat2/__init__.py:94-106 | the first failing slot decides the error `load` raises |
| LoadLemmas.FoundRecord | ftldat2/__init__.py:101-106 | a decoded record's path is the string whose UTF-8 encoding is exactly the `pathLength` bytes read, and its contents are the `contentLength` bytes after them, cut short where the file ends |
| CodecLemmas.SelfConsistentIff | ftldat2/__init__.py:126-128 | counting path bytes always matches the bytes written; counting characters matches them exactly when every path is ASCII |
| CodecLemmas.SizeIsRecordLength | ftldat2/__init__.py:125-129 | a record's written length equals the entry's size exactly when its path is ASCII |
| CodecLemmas.SaveHeader | ftldat2/__init__.py:119 | `save` output starts with the index size as a little-endian u32 and covers the whole index region of `4 + 4*index_size` bytes |
| CodecLemmas.SaveSlot | ftldat2/__init__.py:120-124 | slot `i` is non-zero exactly when `i < len(index)`; a used slot holds the data start plus the sizes of the earlier entries, which is at least `4 + 4*index_size`; every later slot is four zero bytes |
| CodecLemmas.SaveLength | ftldat2/__init__.py:119-129 | when the path lengths match the bytes written, the output is exactly `4 + 4*index_size` plus the sum of the entry sizes |
| CodecLemmas.SaveRecordAt | ftldat2/__init__.py:120-129 | when the path lengths match the bytes written, the offset in slot `i` points at entry `i`'s record, which spans the entry's size |
| CodecLemmas.LayoutSlot | ftldat2/__init__.py:119-124 | in the layout, slot `i` holds the packed offset of entry `i` if it is used and four zero bytes otherwise |
| CodecLemmas.LayoutRecord | ftldat2/__init__.py:120-129 | in the layout, entry `i`'s record lies at the offset its slot holds |
| CodecLemmas.DecodeRecordOf | ftldat2/__init__.py:101-106 | reading a well-formed record gives back its entry |
| CodecLemmas.DecodeSlotOfLayout | ftldat2/__init__.py:97-106 | in a saved file, used slot `i` decodes to entry `i` and every other slot is empty |
| CodecLemmas.WalkOfUsedSlots | ftldat2/__init__.py:97-106 | walking slots that hold the entries in order and then only empty slots gives exactly those entries, with no failure |
| CodecLemmas.LoadSave | ftldat2/__init__.py:94-129 | when the path lengths match the bytes written, loading what `save` wrote gives the same index size and the same entries in the same order |
| CodecLemmas.LoadSaveAscii | ftldat2/__init__.py:94-129 | the source's round trip holds for every archive whose paths are all ASCII |
| CodecLemmas.LoadSaveByteCount | ftldat2/__init__.py:94-129 | with path lengths counted in UTF-8 bytes, the round trip holds for every archive |
| CodecLemmas.WalkMonotone | ftldat2/__init__.py:97-106 | scanning more slots only appends entries, and once a slot fails, later slots change nothing |
| CodecLemmas.WalkStops | ftldat2/__init__.py:97-106 | the first failing slot ends the walk with that slot's error and the entries found before it |
| CodecLemmas.WalkAllEmpty | ftldat2/__init__.py:97-100 | a file whose first `k` slots are all zero loads no entry from them |
| CodecLemmas.SlotsOfPrefix | ftldat2/__init__.py:97 | the first `k` of `n` decoded slots are the slots `0 .. k-1` |
| CodecLemmas.CharCountBreaksRoundTrip | ftldat2/__init__.py:126-128 | the source as written saves the one-entry archive holding the empty file "é" with index size 1, and loading that output fails with `InvalidPath` |
| CodecLemmas.CharCountLoadsWrongEntry | ftldat2/__init__.py:126-128 | the source as written saves `"éa"` holding `"xy"` with a pathLength of 2, and `load` then returns, without any error, the entry `"é"` holding `"ax"` |
| Scenarios.EmptyArchive | ftldat2/__init__.py:94-129 | an index of size 0 with no entries saves as four zero bytes, and those four bytes load back as that archive |
| Scenarios.ShortPathLoads | ftldat2/__init__.py:102-106 | a record declaring a 5-byte path with only the byte `a` left in the file loads as the path "a" with empty contents, rather than failing |
| Scenarios.TwoEntryArchive | ftldat2/__init__.py:94-129 | `a.txt` holding "hi" and `b/c.txt` holding "bye", with index size 2, save as 45 bytes with header 2 and slots 12 and 27, and load back unchanged |
| Paths.Clip | ftldat2/__init__.py:150 | `path[clip:]` is what follows the first `clip` characters, or nothing when the path is shorter |
| Paths.Replace | ftldat2/__init__.py:150 | a one-character `replace` keeps the length and changes exactly the matching characters |
| Paths.ArchivePath | ftldat2/__init__.py:150 | the archive path drops the root and one separator from the found path and keeps no host separator; `Paths.ArchivePathOfChild` states that a file below the root gets its relative path with `/` separators |
| Paths.HostPath | ftldat2/__init__.py:162 | the host form of an archive path has the same length and, when the host separator is not `/`, keeps no `/`; `Paths.HostOfArchivePath` states when it undoes the archive mapping |
| Paths.Join | ftldat2/__init__.py:162 | POSIX `os.path.join` returns an absolute second part unchanged; otherwise the result starts with the first part, ends with the second, and is at least as long as both together, so the two do not overlap |
| Paths.ArchivePathOfChild | ftldat2/__init__.py:142-150 | a file directly below the root, one separator in between, gets its relative path with `/` separators, and no host separator remains |
| Paths.HostOfArchivePath | ftldat2/__init__.py:162 | mapping a relative host path to its archive path and back gives the same path exactly when the host separator is `/` or the path has no `/` of its own |
| Paths.JoinInjective | ftldat2/__init__.py:162 | joining one directory with two different relative paths gives two different paths |
| Tree.IndexSizeFor | ftldat2/__init__.py:153 | `max(count, min_index)` is at least the count and at least the minimum, and equals one of them |
| Tree.Collect | ftldat2/__init__.py:143-152 | the walk loop makes at most one entry per walked path; `Tree.CollectOfFiles` (non-files add nothing) and `Tree.CollectAt` (one entry per regular file, at its walk-order position, with its archive path and contents) give its meaning |
| Tree.Extract | ftldat2/__init__.py:161-165 | extracting entries never removes a file |
| Tree.Target | ftldat2/__init__.py:162 | an archive path starting with `/` is written at that host path, in place of the target directory; any other relative path is written below the target directory and ends with its host form; `Tree.TreeRoundTrip` states where each collected file ends up |
| Tree.CollectFiles | ftldat2/__init__.py:143-152 | when every walked path is a regular file, `construct` makes one entry per file in walk order, with the file's archive path and contents |
| Tree.FilesAt | ftldat2/__init__.py:143-147 | the regular files of a walk keep their walk order and none is dropped: the file at walk position `k` comes after exactly the files before position `k` |
| Tree.CollectOfFiles | ftldat2/__init__.py:143-152 | `construct` skips every walked path that is not a regular file, such as the root itself and its directories |
| Tree.CollectAt | ftldat2/__init__.py:141-152 | for any walk, `construct` makes exactly as many entries as there are regular files, and the file at walk position `k` gives the entry numbered by the count of files before it, holding its contents under its archive path |
| Tree.ExtractKeepsOthers | ftldat2/__init__.py:161-165 | extracting never removes a file and leaves every file that no entry targets unchanged |
| Tree.ExtractLastWins | ftldat2/__init__.py:161-165 | the last entry written to a target decides that target's contents |
| Tree.TreeRoundTrip | ftldat2/__init__.py:141-165 | for any walk whose regular files lie below the root at distinct paths, whose relative paths do not start with the host separator, and whose relative paths hold `/` only when the host separator is `/`, extracting the constructed entries under a destination puts each file's contents at the destination joined with its relative path; directories and the root itself are skipped |
| Pack.FTLPack.constructor | ftldat2/__init__.py:78-79 | a new pack has no entries and an index size of 0 |
| Pack.FTLPack.Load | ftldat2/__init__.py:88-106 | `load` succeeds exactly when the pure `Load` does and then holds its archive; otherwise it reports the same error; either way the index size is the header's value and the entries are those walked so far, or the entries are empty and the old index size is kept when the header is short |
| Pack.FTLPack.FailureStops | ftldat2/__init__.py:97-106 | a failure at slot `i` fixes the result of the whole walk |
| Pack.FTLPack.Save | ftldat2/__init__.py:109-129 | `save` writes exactly the layout with path lengths in UTF-8 bytes, or raises the same error as the pure `Save`; what it writes loads back as the same index size and entries |
| AsciiAgreement.AsciiSavesAgree | ftldat2/__init__.py:119-129 | for ASCII paths, the source's `save` (paths counted in characters) and the corrected one fail alike or write the same bytes |
| Pack.FTLPack.WriteIndex | ftldat2/__init__.py:119-124 | the header, the running-offset loop and the zero padding produce the header, slot table and zeros of the layout, and fail exactly when an offset does not fit 32 bits; each offset advances by the record's encoded length |
| Pack.FTLPack.WriteRecords | ftldat2/__init__.py:125-129 | the record loop produces the records of the layout, with the encoded path length as pathLength, and fails exactly when a length does not fit 32 bits |
| Pack.FTLPack.Construct | ftldat2/__init__.py:131-153 | `construct` sets the entries to the collected files and the index size to `max(len(index), min_index)`, with `min_index` 2048 by default, so a following `save` never raises `IndexTooSmall` |
| Pack.FTLPack.Destruct | ftldat2/__init__.py:155-165 | `destruct` leaves the file system that writing the entries in order specifies |

## Left out

- `sizeof` (ftldat2/__init__.py:16-29) and `FileEntry.__repr__` are left out: they format numbers for display and are not part of the format.
- `main` and the path probes in `FTLPack.__init__` are left out: they are command-line handling and file-system checks (`islink`, `readlink`, `isfile`, `isdir`).
- Reading and writing files are left out. `load` takes the file's bytes as a parameter, and `save` returns the bytes it would write.
- Pack.FTLPack.Save returns no bytes on an `Overflow`, where the source leaves the partial file it had written so far.
- Codec.Save, the source as written, likewise returns `Failure(Overflow)` without the partial file that lines 119-129 leave behind.
- Pack.FTLPack.Save, Pack.FTLPack.WriteIndex and Pack.FTLPack.WriteRecords count each path in UTF-8 bytes, not in characters as the source does. This is the correction of the finding below. It changes nothing for ASCII paths (`AsciiAgreement.AsciiSavesAgree`), and the source as written is `Codec.Save` with `CharCount`.
- The directory walk is given as a parameter: the sequence of paths the loop sees, each already resolved through `os.readlink` when it is a link and classified as a regular file or not. `glob.iglob`, `readlink` and `isfile` themselves are not modelled. The recursive `**` pattern yields the root directory itself (with a trailing separator) and every subdirectory, which `construct` skips as not regular files. It does not yield names starting with a dot. The file contents that `f.read()` returns come with each walked path.
- Tree.TreeRoundTrip covers files reached through a symbolic link only when the link's target still lies below the root: the source clips the root's length off the target that `os.readlink` returns, whatever that target is.
- Pack.FTLPack.Destruct: the file system is a map from path to contents, and `os.makedirs` is not modelled, so neither are directories or a failure to create one.
- The trailing `f.seek` at the end of `load` is left out: it has no observable effect.
- `os.path.join` follows the POSIX rules with the host separator as a parameter. Windows drive letters and the `ntpath` rules are not modelled.
- Tree.TreeRoundTrip requires every walked file to lie below the root, one separator in between. A root given with a trailing separator makes `construct` clip one character too many. That case is not covered.
- Python strings holding lone surrogates, which `str.encode()` rejects, are outside the model, because a Dafny `char` is a Unicode scalar value.

## Findings

| source | as written | input that shows it | evidently intended | confidence | as-written member | corrected member |
|---|---|---|---|---|---|---|
| ftldat2/__init__.py:126-128 | `pathLength` and the entry size count the path's characters, `len(entry.path)`, but the path is written as `entry.path.encode()`, its UTF-8 bytes | one empty file named "é" with index size 1: `save` writes a pathLength of 1 before the two bytes C3 A9, and `load` then decodes the lone byte C3 and raises `UnicodeDecodeError` | `pathLength` and the size count the encoded bytes, so that `load` reads back what `save` wrote for every path | not executed | CodecLemmas.CharCountBreaksRoundTrip | CodecLemmas.LoadSaveByteCount |
| ftldat2/__init__.py:126-128 | the same character count, when the encoded path ends in ASCII bytes that still decode | one file named "éa" holding "xy" with index size 1: `save` writes a pathLength of 2 before C3 A9 61 78 79, and `load` reads C3 A9 as the path "é" and "ax" as its contents, without any error | `load` returns the entry that was saved | not executed | CodecLemmas.CharCountLoadsWrongEntry | CodecLemmas.LoadSaveByteCount |

=== FILE: agreement.dfy ===
/**
 * On ASCII paths the two ways of counting a path agree, so the bytes the
 * source writes and the bytes of the corrected count are the same.
 */
module AsciiAgreement {
  import opened Bytes
  import Utf8
  import opened Entries
  import opened Codec
  import opened CodecLemmas

  /** Both counts give every entry of `s` the same pathLength. */
  predicate SameCounts(s: seq<FileEntry>) {
    forall i | 0 <= i < |s| :: PathLength(CharCount, s[i]) == PathLength(ByteCount, s[i])
  }

  /** An ASCII path has as many UTF-8 bytes as characters. */
  lemma AsciiSameCounts(s: seq<FileEntry>)
    requires AllAscii(s)
    ensures SameCounts(s)
  {
    SelfConsistentIff(s);
  }

  lemma SameCountsPrefix(s: seq<FileEntry>, k: nat)
    requires k <= |s| && SameCounts(s)
    ensures SameCounts(s[..k])
  {
    forall i | 0 <= i < k ensures PathLength(CharCount, s[..k][i]) == PathLength(ByteCount, s[..k][i]) {
      assert s[..k][i] == s[i];
    }
  }

  lemma {:induction false} SumSizesAgree(s: seq<FileEntry>)
    requires SameCounts(s)
    ensures SumSizes(CharCount, s) == SumSizes(ByteCount, s)
  {
    if s != [] {
      SameCountsPrefix(s, |s| - 1);
      SumSizesAgree(s[..|s| - 1]);
    }
  }

  lemma SlotOffsetsAgree(n: nat, s: seq<FileEntry>, i: nat)
    requires i <= |s| && SameCounts(s)
    ensures SlotOffset(CharCount, n, s, i) == SlotOffset(ByteCount, n, s, i)
  {
    SameCountsPrefix(s, i);
    SumSizesAgree(s[..i]);
  }

  lemma {:induction false} SlotTablesAgree(n: nat, s: seq<FileEntry>, k: nat)
    requires k <= |s| && SameCounts(s) && SlotsFit(CharCount, n, s, k)
    ensures SlotsFit(ByteCount, n, s, k)
    ensures SlotTable(CharCount, n, s, k) == SlotTable(ByteCount, n, s, k)
  {
    forall i | 0 <= i < k ensures SlotOffset(ByteCount, n, s, i) < U32_LIMIT {
      SlotOffsetsAgree(n, s, i);
    }
    if k > 0 {
      SlotTablesAgree(n, s, k - 1);
      SlotOffsetsAgree(n, s, k - 1);
    }
  }

  lemma {:induction false} RecordsAgree(s: seq<FileEntry>)
    requires SameCounts(s) && RecordsFit(CharCount, s)
    ensures RecordsFit(ByteCount, s)
    ensures Records(CharCount, s) == Records(ByteCount, s)
  {
    assert RecordsFit(ByteCount, s) by {
      forall i | 0 <= i < |s| ensures RecordFits(ByteCount, s[i]) {
        assert RecordFits(CharCount, s[i]);
      }
    }
    if s != [] {
      SameCountsPrefix(s, |s| - 1);
      var init := s[..|s| - 1];
      assert RecordsFit(CharCount, init) by {
        forall i | 0 <= i < |init| ensures RecordFits(CharCount, init[i]) {
          assert init[i] == s[i];
        }
      }
      RecordsAgree(init);
    }
  }

  /** When the counts agree, the source fits a value in 32 bits exactly when the corrected count does. */
  lemma PackableAgree(n: nat, s: seq<FileEntry>)
    requires SameCounts(s)
    ensures Packable(CharCount, n, s) <==> Packable(ByteCount, n, s)
  {
    forall i | 0 <= i < |s| ensures SlotOffset(CharCount, n, s, i) == SlotOffset(ByteCount, n, s, i) {
      SlotOffsetsAgree(n, s, i);
    }
    forall i | 0 <= i < |s| ensures RecordFits(CharCount, s[i]) <==> RecordFits(ByteCount, s[i]) {
    }
  }

  /**
   * For an archive whose paths are all ASCII, `save` as written (paths
   * counted in characters) and the corrected `save` (paths counted in
   * UTF-8 bytes) fail in the same way or write the same bytes.
   */
  lemma AsciiSavesAgree(n: nat, s: seq<FileEntry>)
    requires AllAscii(s)
    ensures Save(CharCount, n, s) == Save(ByteCount, n, s)
  {
    hide PackU32, Utf8.Encode, Zeros;
    AsciiSameCounts(s);
    PackableAgree(n, s);
    if |s| <= n && Packable(CharCount, n, s) {
      SlotTablesAgree(n, s, |s|);
      RecordsAgree(s);
    }
  }
}

=== FILE: bytes.dfy ===
/**
 * Bytes and the little-endian unsigned 32-bit integers of the archive
 * format (`struct.pack('<L', …)` / `struct.unpack('<L', …)`).
 */
module Bytes {

  type byte = b: int | 0 <= b < 256

  /** One more than the largest value a `<L` field can hold. */
  const U32_LIMIT: int := 0x1_0000_0000

  type u32 = n: int | 0 <= n < U32_LIMIT

  /** The four bytes `struct.pack('<L', n)` produces, least significant first. */
  function PackU32(n: u32): (r: seq<byte>)
    ensures |r| == 4 && r[0] == n % 0x100
  {
    var q1 := n / 0x100;
    var q2 := q1 / 0x100;
    [n % 0x100, q1 % 0x100, q2 % 0x100, q2 / 0x100]
  }

  /** The value `struct.unpack('<L', b)` reads from four bytes. */
  function UnpackU32(b: seq<byte>): (n: u32)
    requires |b| == 4
    ensures n % 0x100 == b[0]
    ensures n == 0 <==> b == [0, 0, 0, 0]
  {
    b[0] as int + 0x100 * b[1] as int + 0x1_0000 * b[2] as int + 0x100_0000 * b[3] as int
  }

  /** Reading back a packed value gives the value. */
  lemma UnpackPack(n: u32)
    ensures UnpackU32(PackU32(n)) == n
  {
    var q1 := n / 0x100;
    var q2 := q1 / 0x100;
    assert n == n % 0x100 + 0x100 * (q1 % 0x100) + 0x1_0000 * (q2 % 0x100) + 0x100_0000 * (q2 / 0x100);
  }

  /** Packing is injective: four bytes are the packing of the value they hold. */
  lemma PackUnpack(b: seq<byte>)
    requires |b| == 4
    ensures PackU32(UnpackU32(b)) == b
  {
    var n := UnpackU32(b);
    var q2 := b[2] as int + 0x100 * b[3] as int;
    var q1 := b[1] as int + 0x100 * q2;
    assert n == b[0] as int + 0x100 * q1;
    DivMod(n, q1, b[0]);
    DivMod(q1, q2, b[1]);
    DivMod(q2, b[3], b[2]);
    assert PackU32(n) == [b[0], b[1], b[2], b[3]];
  }

  /** Quotient and remainder by 256 are determined by `n == q * 256 + r` with `0 <= r < 256`. */
  lemma DivMod(n: int, q: int, r: int)
    requires 0 <= r < 0x100 && n == q * 0x100 + r
    ensures n / 0x100 == q && n % 0x100 == r
  {
  }

  /** `n` zero bytes, as `b'\x00' * n`. */
  function Zeros(n: nat): (r: seq<byte>)
    ensures |r| == n
    ensures forall i | 0 <= i < n :: r[i] == 0
  {
    seq(n, _ => 0)
  }
}

=== FILE: codec.dfy ===
/**
 * The binary archive layout and its two directions, as pure functions of
 * the archive: a little-endian u32 slot count `N`, `N` u32 offset slots
 * (0 marks an empty slot), then one record per entry, each
 * `contentLength:u32, pathLength:u32, path bytes, content bytes`.
 */
module Codec {
  import opened Wrappers
  import opened Bytes
  import Utf8
  import opened Entries

  /**
   * How a record's pathLength field, and so an entry's size, counts the
   * path. `CharCount` is what the source writes (`len` of the `str`);
   * `ByteCount` counts the UTF-8 bytes that are actually written.
   */
  datatype PathCount = CharCount | ByteCount

  function PathLength(m: PathCount, e: FileEntry): nat {
    match m
    case CharCount => |e.path|
    case ByteCount => |Utf8.Encode(e.path)|
  }

  /** The room an entry takes in the data region, as `save` accounts for it. */
  function RecordSize(m: PathCount, e: FileEntry): (r: nat)
    ensures m == CharCount ==> r == e.Size()
  {
    8 + PathLength(m, e) + |e.contents|
  }

  /** Byte offset of the data region, just after the header and `n` slots. */
  function DataStart(n: nat): nat {
    4 + 4 * n
  }

  /** Total accounted size of a run of entries. */
  function SumSizes(m: PathCount, s: seq<FileEntry>): nat {
    if s == [] then 0 else SumSizes(m, s[..|s| - 1]) + RecordSize(m, s[|s| - 1])
  }

  /** The value `save` writes into slot `i`: the start of the data region plus the sizes of the entries before `i`. */
  function SlotOffset(m: PathCount, n: nat, s: seq<FileEntry>, i: nat): nat
    requires i <= |s|
  {
    DataStart(n) + SumSizes(m, s[..i])
  }

  /** The first `k` slot values fit a `<L` field. */
  predicate SlotsFit(m: PathCount, n: nat, s: seq<FileEntry>, k: nat)
    requires k <= |s|
  {
    forall i | 0 <= i < k :: SlotOffset(m, n, s, i) < U32_LIMIT
  }

  /** Both length fields of an entry's record fit a `<L` field. */
  predicate RecordFits(m: PathCount, e: FileEntry) {
    |e.contents| < U32_LIMIT && PathLength(m, e) < U32_LIMIT
  }

  predicate RecordsFit(m: PathCount, s: seq<FileEntry>) {
    forall i | 0 <= i < |s| :: RecordFits(m, s[i])
  }

  /** Every integer `save` packs is in range, so no `struct.pack` raises. */
  predicate Packable(m: PathCount, n: nat, s: seq<FileEntry>) {
    n < U32_LIMIT && SlotsFit(m, n, s, |s|) && RecordsFit(m, s)
  }

  /** The bytes of the first `k` used slots. */
  function SlotTable(m: PathCount, n: nat, s: seq<FileEntry>, k: nat): (r: seq<byte>)
    requires k <= |s| && SlotsFit(m, n, s, k)
    ensures |r| == 4 * k
  {
    if k == 0 then [] else SlotTable(m, n, s, k - 1) + PackU32(SlotOffset(m, n, s, k - 1))
  }

  /** One record: contentLength, pathLength, the UTF-8 path, the contents. */
  function Record(m: PathCount, e: FileEntry): (r: seq<byte>)
    requires RecordFits(m, e)
  {
    PackU32(|e.contents|) + PackU32(PathLength(m, e)) + Utf8.Encode(e.path) + e.contents
  }

  function Records(m: PathCount, s: seq<FileEntry>): seq<byte>
    requires RecordsFit(m, s)
  {
    if s == [] then []
    else Records(m, s[..|s| - 1]) + Record(m, s[|s| - 1])
  }

  /** The whole file: header, used slots, zero slots, records. */
  function Layout(m: PathCount, n: nat, s: seq<FileEntry>): (r: seq<byte>)
    requires |s| <= n && Packable(m, n, s)
    ensures 4 + 4 * n <= |r| && UnpackU32(r[..4]) == n
  {
    var head := PackU32(n);
    var r := head + SlotTable(m, n, s, |s|) + Zeros(4 * (n - |s|)) + Records(m, s);
    assert r[..4] == head;
    UnpackPack(n);
    r
  }

  datatype SaveError =
    | IndexTooSmall(count: nat, indexSize: nat)  // `FTLPackError`, raised before the file is opened
    | Overflow                                    // `struct.error` from packing a value of 2^32 or more

  /** The bytes `save` writes for an index of size `n` holding `s`, or why it raises. */
  function Save(m: PathCount, n: nat, s: seq<FileEntry>): (r: Result<seq<byte>, SaveError>)
    ensures r == Failure(IndexTooSmall(|s|, n)) <==> |s| > n
    ensures r.Success? <==> |s| <= n && Packable(m, n, s)
  {
    if |s| > n then Failure(IndexTooSmall(|s|, n))
    else if !Packable(m, n, s) then Failure(Overflow)
    else Success(Layout(m, n, s))
  }

  datatype LoadError =
    | Truncated    // `struct.error`: fewer than 4 or 8 bytes where a length or offset is unpacked
    | InvalidPath  // `UnicodeDecodeError` from decoding the path bytes

  /** An archive as `load` leaves it: the declared index size and the entries found. */
  datatype Archive = Archive(indexSize: nat, entries: seq<FileEntry>)

  function Min(a: int, b: int): int {
    if a <= b then a else b
  }

  /**
   * `f.seek(pos); f.read(count)` on a file holding `data`: at most `count`
   * bytes, fewer (possibly none) when the file ends first.
   */
  function Read(data: seq<byte>, pos: nat, count: nat): (r: seq<byte>)
    ensures |r| <= count
    ensures pos + count <= |data| ==> r == data[pos..pos + count]
    ensures count > 0 ==> (|r| == count <==> pos + count <= |data|)
    ensures pos <= |data| < pos + count ==> r == data[pos..]
    ensures |data| < pos ==> r == []
  {
    data[Min(pos, |data|)..Min(pos + count, |data|)]
  }

  /** What one slot of the index contributes to the loaded entries. */
  datatype Slot = Empty | Found(entry: FileEntry) | Bad(error: LoadError)

  /** Decodes the record at byte `offset`: lengths, path, then contents. */
  function DecodeRecord(data: seq<byte>, offset: nat): (r: Slot)
    ensures r != Empty
    ensures |data| < offset + 8 <==> r == Bad(Truncated)
    ensures offset + 8 <= |data| ==>
      (r == Bad(InvalidPath) <==> Utf8.Decode(Read(data, offset + 8, UnpackU32(data[offset + 4..offset + 8]))).None?)
  {
    var head := Read(data, offset, 8);
    if |head| < 8 then Bad(Truncated)
    else
      var size := UnpackU32(head[..4]);
      var pathBytes := Read(data, offset + 8, UnpackU32(head[4..]));
      match Utf8.Decode(pathBytes)
      case None => Bad(InvalidPath)
      case Some(path) => Found(FileEntry(path, Read(data, offset + 8 + |pathBytes|, size)))
  }

  /** Reads slot `i`; a zero offset is an empty slot, any other is decoded as a record. */
  function DecodeSlot(data: seq<byte>, i: nat): (r: Slot)
    ensures |data| < 8 + 4 * i ==> r == Bad(Truncated)
    ensures r == Empty <==> 8 + 4 * i <= |data| && data[4 + 4 * i..8 + 4 * i] == [0, 0, 0, 0]
  {
    var slot := Read(data, 4 + 4 * i, 4);
    if |slot| < 4 then Bad(Truncated)
    else
      var offset := UnpackU32(slot);
      if offset == 0 then Empty else DecodeRecord(data, offset)
  }

  /** The slots `0 .. k-1` of a file, each decoded on its own. */
  function SlotsOf(data: seq<byte>, k: nat): (r: seq<Slot>)
    ensures |r| == k && forall i | 0 <= i < k :: r[i] == DecodeSlot(data, i)
  {
    if k == 0 then [] else SlotsOf(data, k - 1) + [DecodeSlot(data, k - 1)]
  }

  /** The state of the slot walk: the entries appended so far, and the failure that stopped it, if any. */
  datatype Scan = Scan(entries: seq<FileEntry>, failure: Option<LoadError>)

  /**
   * The walk over decoded slots in ascending order: empty slots are
   * skipped, each found entry is appended, and the first failure stops
   * the walk.
   */
  function Walk(slots: seq<Slot>): (r: Scan)
    ensures |r.entries| <= |slots|
  {
    if slots == [] then Scan([], None)
    else
      var prev := Walk(slots[..|slots| - 1]);
      if prev.failure.Some? then prev
      else match slots[|slots| - 1]
        case Empty => prev
        case Bad(e) => Scan(prev.entries, Some(e))
        case Found(entry) => Scan(prev.entries + [entry], None)
  }

  /** The archive `load` reads from a file holding `data`, or why it raises. */
  function Load(data: seq<byte>): (r: Result<Archive, LoadError>)
    ensures |data| < 4 ==> r == Failure(Truncated)
    ensures r.Success? ==> |data| >= 4 && r.value.indexSize == UnpackU32(data[..4])
    ensures r.Success? ==> |r.value.entries| <= r.value.indexSize
  {
    if |data| < 4 then Failure(Truncated)
    else
      var n := UnpackU32(data[..4]);
      var scan := Walk(SlotsOf(data, n));
      match scan.failure
      case Some(e) => Failure(e)
      case None => Success(Archive(n, scan.entries))
  }
}

=== FILE: codec_lemmas.dfy ===
/**
 * Properties of the archive layout: where `save` puts the header, the
 * slots and the records, what `load` makes of them, and the round trip.
 */
module CodecLemmas {
  import opened Wrappers
  import opened Bytes
  import Utf8
  import opened Entries
  import opened Codec

  /** Every path's declared pathLength equals the number of bytes written for it. */
  predicate SelfConsistent(m: PathCount, s: seq<FileEntry>) {
    forall i | 0 <= i < |s| :: PathLength(m, s[i]) == |Utf8.Encode(s[i].path)|
  }

  predicate AllAscii(s: seq<FileEntry>) {
    forall i | 0 <= i < |s| :: Utf8.IsAscii(s[i].path)
  }

  /** Under `ByteCount` every archive is self-consistent; under `CharCount` exactly the ASCII ones are. */
  lemma SelfConsistentIff(s: seq<FileEntry>)
    ensures SelfConsistent(ByteCount, s)
    ensures SelfConsistent(CharCount, s) <==> AllAscii(s)
  {
    forall i | 0 <= i < |s| ensures PathLength(CharCount, s[i]) == |Utf8.Encode(s[i].path)| <==> Utf8.IsAscii(s[i].path) {
      Utf8.EncodeLength(s[i].path);
    }
  }

  /** An entry's `size` is the length of the record `save` writes for it exactly when its path is ASCII. */
  lemma SizeIsRecordLength(e: FileEntry)
    requires RecordFits(CharCount, e)
    ensures |Record(CharCount, e)| == e.Size() <==> Utf8.IsAscii(e.path)
  {
    Utf8.EncodeLength(e.path);
  }

  // ---- sequence slicing helpers ----

  lemma SliceOf(a: seq<byte>, b: seq<byte>, c: seq<byte>, i: nat, j: nat)
    requires i <= j <= |b|
    ensures (a + b + c)[|a| + i..|a| + j] == b[i..j]
  {
    var x := (a + b + c)[|a| + i..|a| + j];
    forall t | 0 <= t < j - i ensures x[t] == b[i..j][t] {
      assert x[t] == (a + b + c)[|a| + i + t];
    }
  }

  lemma SubSlice(data: seq<byte>, off: nat, r: seq<byte>, x: nat, y: nat)
    requires off + |r| <= |data| && data[off..off + |r|] == r && x <= y <= |r|
    ensures data[off + x..off + y] == r[x..y]
  {
    forall t | 0 <= t < y - x ensures data[off + x..off + y][t] == r[x..y][t] {
      assert data[off + x..off + y][t] == data[off + x + t] == data[off..off + |r|][x + t];
    }
  }

  // ---- the record region ----

  lemma {:induction false} RecordsLength(m: PathCount, s: seq<FileEntry>)
    requires RecordsFit(m, s) && SelfConsistent(m, s)
    ensures |Records(m, s)| == SumSizes(m, s)
  {
    if s != [] {
      RecordsLength(m, s[..|s| - 1]);
    }
  }

  /** The records of a prefix of the entries are a prefix of the records. */
  lemma {:induction false} RecordsPrefix(m: PathCount, s: seq<FileEntry>, k: nat)
    requires k <= |s| && RecordsFit(m, s)
    ensures RecordsFit(m, s[..k]) && Records(m, s[..k]) <= Records(m, s)
  {
    if k < |s| {
      var init := s[..|s| - 1];
      RecordsPrefix(m, init, k);
      assert init[..k] == s[..k];
    } else {
      assert s[..k] == s;
    }
  }

  /** Record `i` starts after the accounted sizes of the entries before it. */
  lemma RecordAt(m: PathCount, s: seq<FileEntry>, i: nat)
    requires i < |s| && RecordsFit(m, s) && SelfConsistent(m, s)
    ensures RecordFits(m, s[i])
    ensures SumSizes(m, s[..i]) + |Record(m, s[i])| <= |Records(m, s)|
    ensures Records(m, s)[SumSizes(m, s[..i])..SumSizes(m, s[..i]) + |Record(m, s[i])|] == Record(m, s[i])
  {
    hide Records, Record, Utf8.Encode, PackU32;
    var all := Records(m, s);
    var rs := Records(m, s[..i]);
    var r := Record(m, s[i]);
    var start := SumSizes(m, s[..i]);
    assert rs + r <= all by {
      RecordsPrefix(m, s, i + 1);
      RecordsSnoc(m, s, i);
    }
    assert start == |rs| by {
      RecordsLength(m, s[..i]);
    }
    PrefixSlice(all, rs, r, start);
  }

  lemma RecordsSnoc(m: PathCount, s: seq<FileEntry>, i: nat)
    requires i < |s| && RecordsFit(m, s[..i + 1])
    ensures RecordsFit(m, s[..i]) && RecordFits(m, s[i])
    ensures Records(m, s[..i + 1]) == Records(m, s[..i]) + Record(m, s[i])
  {
    var pre := s[..i + 1];
    assert pre[..|pre| - 1] == s[..i];
    assert pre[|pre| - 1] == s[i];
  }

  /** When `a + b` is a prefix of `all`, `b` sits in `all` right after `a`. */
  lemma PrefixSlice(all: seq<byte>, a: seq<byte>, b: seq<byte>, start: nat)
    requires a + b <= all && start == |a|
    ensures start + |b| <= |all| && all[start..start + |b|] == b
  {
    forall t | 0 <= t < |b| ensures all[start..start + |b|][t] == b[t] {
      assert all[start + t] == (a + b)[start + t];
    }
  }

  // ---- the index region ----

  lemma {:induction false} SlotTableAt(m: PathCount, n: nat, s: seq<FileEntry>, k: nat, i: nat)
    requires i < k <= |s| && SlotsFit(m, n, s, k)
    ensures SlotTable(m, n, s, k)[4 * i..4 * i + 4] == PackU32(SlotOffset(m, n, s, i))
  {
    hide Records, Record, Utf8.Encode, PackU32;
    var prev := SlotTable(m, n, s, k - 1);
    var last := PackU32(SlotOffset(m, n, s, k - 1));
    if i == k - 1 {
      SliceOf(prev, last, [], 0, 4);
    } else {
      SlotTableAt(m, n, s, k - 1, i);
      SliceOf([], prev, last, 4 * i, 4 * i + 4);
    }
  }

  /** Slot `i` of the layout holds the offset of entry `i`, or zero past the last entry. */
  lemma LayoutSlot(m: PathCount, n: nat, s: seq<FileEntry>, i: nat)
    requires |s| <= n && Packable(m, n, s) && i < n
    ensures 8 + 4 * i <= |Layout(m, n, s)|
    ensures i < |s| ==> Layout(m, n, s)[4 + 4 * i..8 + 4 * i] == PackU32(SlotOffset(m, n, s, i))
    ensures i >= |s| ==> Layout(m, n, s)[4 + 4 * i..8 + 4 * i] == [0, 0, 0, 0]
  {
    if i < |s| {
      LayoutUsedSlot(m, n, s, i);
    } else {
      LayoutFreeSlot(m, n, s, i);
    }
  }

  lemma LayoutUsedSlot(m: PathCount, n: nat, s: seq<FileEntry>, i: nat)
    requires |s| <= n && Packable(m, n, s) && i < |s|
    ensures 8 + 4 * i <= |Layout(m, n, s)|
    ensures Layout(m, n, s)[4 + 4 * i..8 + 4 * i] == PackU32(SlotOffset(m, n, s, i))
  {
    hide Records, Record, Utf8.Encode, PackU32, SlotTable, Zeros;
    var t := SlotTable(m, n, s, |s|);
    assert t[4 * i..4 * i + 4] == PackU32(SlotOffset(m, n, s, i)) by {
      SlotTableAt(m, n, s, |s|, i);
    }
    var z := Zeros(4 * (n - |s|));
    assert PackU32(n) + t + z + Records(m, s) == PackU32(n) + t + (z + Records(m, s));
    SliceOf(PackU32(n), t, z + Records(m, s), 4 * i, 4 * i + 4);
  }

  lemma LayoutFreeSlot(m: PathCount, n: nat, s: seq<FileEntry>, i: nat)
    requires |s| <= n && Packable(m, n, s) && |s| <= i < n
    ensures 8 + 4 * i <= |Layout(m, n, s)|
    ensures Layout(m, n, s)[4 + 4 * i..8 + 4 * i] == [0, 0, 0, 0]
  {
    hide Records, Record, SlotTable, Utf8.Encode, PackU32;
    var z := Zeros(4 * (n - |s|));
    var k := 4 * (i - |s|);
    assert z[k..k + 4] == [0, 0, 0, 0];
    SliceOf(PackU32(n) + SlotTable(m, n, s, |s|), z, Records(m, s), k, k + 4);
  }

  /** The layout is the index region followed by the records. */
  lemma LayoutSplit(m: PathCount, n: nat, s: seq<FileEntry>)
    requires |s| <= n && Packable(m, n, s)
    ensures |Layout(m, n, s)| == DataStart(n) + |Records(m, s)|
    ensures Layout(m, n, s)[DataStart(n)..] == Records(m, s)
  {
    var a := PackU32(n) + SlotTable(m, n, s, |s|) + Zeros(4 * (n - |s|));
    assert Layout(m, n, s) == a + Records(m, s);
  }

  /** Record `i` of the layout starts at the offset written into slot `i`. */
  lemma LayoutRecord(m: PathCount, n: nat, s: seq<FileEntry>, i: nat)
    requires |s| <= n && Packable(m, n, s) && SelfConsistent(m, s) && i < |s|
    ensures RecordFits(m, s[i])
    ensures SlotOffset(m, n, s, i) + |Record(m, s[i])| <= |Layout(m, n, s)|
    ensures Layout(m, n, s)[SlotOffset(m, n, s, i)..SlotOffset(m, n, s, i) + |Record(m, s[i])|] == Record(m, s[i])
  {
    hide Layout, Records, Record, SlotTable, Utf8.Encode, PackU32, Zeros;
    var b := Layout(m, n, s);
    var rs := Records(m, s);
    var start := SumSizes(m, s[..i]);
    var r := Record(m, s[i]);
    assert start + |r| <= |rs| && rs[start..start + |r|] == r by {
      RecordAt(m, s, i);
    }
    assert DataStart(n) + |rs| == |b| && b[DataStart(n)..DataStart(n) + |rs|] == rs by {
      LayoutSplit(m, n, s);
    }
    SubSlice(b, DataStart(n), rs, start, start + |r|);
  }

  // ---- decoding ----

  /** Where a record sits in a file, the 8-byte read at its start returns its two length fields. */
  lemma ReadRecordHead(m: PathCount, data: seq<byte>, off: nat, e: FileEntry)
    requires RecordFits(m, e)
    requires off + |Record(m, e)| <= |data| && data[off..off + |Record(m, e)|] == Record(m, e)
    ensures Read(data, off, 8) == PackU32(|e.contents|) + PackU32(PathLength(m, e))
  {
    hide PackU32, Utf8.Encode;
    var r := Record(m, e);
    var lens := PackU32(|e.contents|) + PackU32(PathLength(m, e));
    var rest := Utf8.Encode(e.path) + e.contents;
    assert data[off..off + 8] == r[0..8] by {
      SubSlice(data, off, r, 0, 8);
    }
    assert r[0..8] == lens by {
      assert r == [] + lens + rest;
      SliceOf([], lens, rest, 0, 8);
    }
  }

  /** Where a self-consistent record sits in a file, the read after its head returns its path bytes. */
  lemma ReadRecordPath(m: PathCount, data: seq<byte>, off: nat, e: FileEntry)
    requires RecordFits(m, e) && PathLength(m, e) == |Utf8.Encode(e.path)|
    requires off + |Record(m, e)| <= |data| && data[off..off + |Record(m, e)|] == Record(m, e)
    ensures Read(data, off + 8, PathLength(m, e)) == Utf8.Encode(e.path)
  {
    hide PackU32, Utf8.Encode;
    var r := Record(m, e);
    var enc := Utf8.Encode(e.path);
    var lens := PackU32(|e.contents|) + PackU32(PathLength(m, e));
    assert data[off + 8..off + 8 + |enc|] == r[8..8 + |enc|] by {
      SubSlice(data, off, r, 8, 8 + |enc|);
    }
    assert r[8..8 + |enc|] == enc by {
      assert r == lens + enc + e.contents;
      SliceOf(lens, enc, e.contents, 0, |enc|);
    }
  }

  /** Where a self-consistent record sits in a file, the read after its path returns its contents. */
  lemma ReadRecordContents(m: PathCount, data: seq<byte>, off: nat, e: FileEntry)
    requires RecordFits(m, e) && PathLength(m, e) == |Utf8.Encode(e.path)|
    requires off + |Record(m, e)| <= |data| && data[off..off + |Record(m, e)|] == Record(m, e)
    ensures Read(data, off + 8 + PathLength(m, e), |e.contents|) == e.contents
  {
    hide PackU32, Utf8.Encode;
    var r := Record(m, e);
    var front := PackU32(|e.contents|) + PackU32(PathLength(m, e)) + Utf8.Encode(e.path);
    assert data[off + |front|..off + |r|] == r[|front|..|r|] by {
      SubSlice(data, off, r, |front|, |r|);
    }
    assert r[|front|..|r|] == e.contents by {
      assert r == front + e.contents + [];
      SliceOf(front, e.contents, [], 0, |e.contents|);
    }
  }

  /** `load` decodes a record written by `save` back into its entry, whatever surrounds it. */
  lemma DecodeRecordOf(m: PathCount, data: seq<byte>, off: nat, e: FileEntry)
    requires RecordFits(m, e) && PathLength(m, e) == |Utf8.Encode(e.path)|
    requires off + |Record(m, e)| <= |data| && data[off..off + |Record(m, e)|] == Record(m, e)
    ensures DecodeRecord(data, off) == Found(e)
  {
    hide Record, Utf8.Encode, Utf8.Decode, PackU32, UnpackU32;
    var pl := PathLength(m, e);
    var enc := Utf8.Encode(e.path);
    var head := Read(data, off, 8);
    assert head == PackU32(|e.contents|) + PackU32(pl) by {
      ReadRecordHead(m, data, off, e);
    }
    assert UnpackU32(head[..4]) == |e.contents| by {
      assert head[..4] == PackU32(|e.contents|);
      UnpackPack(|e.contents|);
    }
    assert UnpackU32(head[4..]) == pl by {
      assert head[4..] == PackU32(pl);
      UnpackPack(pl);
    }
    assert Read(data, off + 8, pl) == enc by {
      ReadRecordPath(m, data, off, e);
    }
    assert Utf8.Decode(enc) == Some(e.path) by {
      Utf8.DecodeEncode(e.path);
    }
    assert Read(data, off + 8 + |enc|, |e.contents|) == e.contents by {
      ReadRecordContents(m, data, off, e);
    }
  }

  /** Each slot of the layout decodes to its entry, and every slot past the last entry is empty. */
  lemma DecodeSlotOfLayout(m: PathCount, n: nat, s: seq<FileEntry>, i: nat)
    requires |s| <= n && Packable(m, n, s) && SelfConsistent(m, s) && i < n
    ensures DecodeSlot(Layout(m, n, s), i) == if i < |s| then Found(s[i]) else Empty
  {
    hide Layout, Records, Record, SlotTable, Zeros, Utf8.Encode, PackU32, DecodeRecord;
    var b := Layout(m, n, s);
    LayoutSlot(m, n, s, i);
    if i < |s| {
      var off := SlotOffset(m, n, s, i);
      UnpackPack(off);
      LayoutRecord(m, n, s, i);
      DecodeRecordOf(m, b, off, s[i]);
    }
  }

  /** The walk over slots that each hold entry `i`, or are empty past the last entry, yields the entries in order. */
  lemma {:induction false} WalkOfUsedSlots(slots: seq<Slot>, s: seq<FileEntry>)
    requires forall i | 0 <= i < |slots| :: slots[i] == if i < |s| then Found(s[i]) else Empty
    ensures Walk(slots) == Scan(s[..Min(|slots|, |s|)], None)
  {
    if slots != [] {
      var k := |slots|;
      WalkOfUsedSlots(slots[..k - 1], s);
      if k - 1 < |s| {
        assert s[..k - 1] + [s[k - 1]] == s[..k];
      }
    }
  }

  /**
   * Round trip: when every path's declared length is its encoded length,
   * loading what `save` wrote gives back the same index size and the same
   * entries in the same order.
   */
  lemma LoadSave(m: PathCount, n: nat, s: seq<FileEntry>)
    requires SelfConsistent(m, s) && Save(m, n, s).Success?
    ensures Load(Save(m, n, s).value) == Success(Archive(n, s))
  {
    hide Layout, Records, Record, SlotTable, Zeros, Utf8.Encode, PackU32, DecodeSlot;
    var b := Save(m, n, s).value;
    SaveHeader(m, n, s);
    forall i | 0 <= i < n ensures DecodeSlot(b, i) == if i < |s| then Found(s[i]) else Empty {
      DecodeSlotOfLayout(m, n, s, i);
    }
    WalkOfUsedSlots(SlotsOf(b, n), s);
    assert s[..|s|] == s;
  }

  /** The source's round trip, for archives whose paths are all ASCII. */
  lemma LoadSaveAscii(n: nat, s: seq<FileEntry>)
    requires AllAscii(s) && Save(CharCount, n, s).Success?
    ensures Load(Save(CharCount, n, s).value) == Success(Archive(n, s))
  {
    SelfConsistentIff(s);
    LoadSave(CharCount, n, s);
  }

  /** With pathLength counted in UTF-8 bytes, the round trip holds for every path. */
  lemma LoadSaveByteCount(n: nat, s: seq<FileEntry>)
    requires Save(ByteCount, n, s).Success?
    ensures Load(Save(ByteCount, n, s).value) == Success(Archive(n, s))
  {
    SelfConsistentIff(s);
    LoadSave(ByteCount, n, s);
  }

  // ---- what `load` does with any input ----

  /**
   * The slot walk goes in ascending slot order and stops at the first
   * failure: the entries found in the first `k` slots come first, and once
   * a slot has failed later slots change nothing.
   */
  lemma {:induction false} WalkMonotone(slots: seq<Slot>, k: nat)
    requires k <= |slots|
    ensures Walk(slots[..k]).entries <= Walk(slots).entries
    ensures Walk(slots[..k]).failure.Some? ==> Walk(slots) == Walk(slots[..k])
  {
    if k < |slots| {
      var init := slots[..|slots| - 1];
      WalkMonotone(init, k);
      assert init[..k] == slots[..k];
      PrefixTransitive(Walk(slots[..k]).entries, Walk(init).entries, Walk(slots).entries);
    } else {
      assert slots[..k] == slots;
    }
  }

  /** A failing slot ends the walk: the result is the entries before it and that slot's error. */
  lemma WalkStops(slots: seq<Slot>, i: nat)
    requires i < |slots| && Walk(slots[..i]).failure.None? && slots[i].Bad?
    ensures Walk(slots) == Scan(Walk(slots[..i]).entries, Some(slots[i].error))
  {
    var upto := slots[..i + 1];
    assert Walk(upto) == Scan(Walk(slots[..i]).entries, Some(slots[i].error)) by {
      assert upto[..|upto| - 1] == slots[..i];
      assert upto[|upto| - 1] == slots[i];
    }
    WalkMonotone(slots, i + 1);
  }

  /** The decoded slots of a shorter index are a prefix of those of a longer one. */
  lemma {:induction false} SlotsOfPrefix(data: seq<byte>, k: nat, n: nat)
    requires k <= n
    ensures SlotsOf(data, n)[..k] == SlotsOf(data, k)
  {
    if k < n {
      SlotsOfPrefix(data, k, n - 1);
      assert SlotsOf(data, n)[..n - 1] == SlotsOf(data, n - 1);
    }
  }

  lemma PrefixTransitive(a: seq<FileEntry>, b: seq<FileEntry>, c: seq<FileEntry>)
    requires a <= b && b <= c
    ensures a <= c
  {
    assert forall i | 0 <= i < |a| :: a[i] == b[i] == c[i];
  }

  /** An index whose every slot is zero loads as no entries, whatever the index size. */
  lemma {:induction false} WalkAllEmpty(data: seq<byte>, k: nat)
    requires 4 + 4 * k <= |data|
    requires forall i | 0 <= i < k :: data[4 + 4 * i..8 + 4 * i] == [0, 0, 0, 0]
    ensures Walk(SlotsOf(data, k)) == Scan([], None)
  {
    if k > 0 {
      WalkAllEmpty(data, k - 1);
      assert Read(data, 4 + 4 * (k - 1), 4) == [0, 0, 0, 0];
      assert SlotsOf(data, k)[..k - 1] == SlotsOf(data, k - 1);
    }
  }

  // ---- what `save` writes ----

  /** `save` starts with the index size as a little-endian u32, and its output covers the whole index region. */
  lemma SaveHeader(m: PathCount, n: nat, s: seq<FileEntry>)
    requires Save(m, n, s).Success?
    ensures var b := Save(m, n, s).value;
      |b| >= DataStart(n) && UnpackU32(b[..4]) == n
  {
    hide Records, Record, SlotTable, Zeros, Utf8.Encode;
    var b := Layout(m, n, s);
    LayoutSplit(m, n, s);
    assert b[..4] == PackU32(n);
    UnpackPack(n);
  }

  /**
   * Slot `i` is nonzero exactly when it is used: a used slot holds the
   * start of the data region plus the sizes of the entries before it, and
   * every slot from `|s|` to `n - 1` is four zero bytes.
   */
  lemma SaveSlot(m: PathCount, n: nat, s: seq<FileEntry>, i: nat)
    requires Save(m, n, s).Success? && i < n
    ensures var b := Save(m, n, s).value;
      8 + 4 * i <= |b| &&
      var v := UnpackU32(b[4 + 4 * i..8 + 4 * i]);
      (i < |s| <==> v != 0) &&
      (i < |s| ==> v == SlotOffset(m, n, s, i) && v >= DataStart(n)) &&
      (i >= |s| ==> b[4 + 4 * i..8 + 4 * i] == [0, 0, 0, 0])
  {
    hide Layout, Records, Record, SlotTable, Zeros, Utf8.Encode, PackU32, UnpackU32;
    LayoutSlot(m, n, s, i);
    if i < |s| {
      UnpackPack(SlotOffset(m, n, s, i));
    }
  }

  /** When every declared path length is the encoded length, the output is the index region followed by exactly the entries' sizes. */
  lemma SaveLength(m: PathCount, n: nat, s: seq<FileEntry>)
    requires SelfConsistent(m, s) && Save(m, n, s).Success?
    ensures |Save(m, n, s).value| == DataStart(n) + SumSizes(m, s)
  {
    hide Layout, Records, Record, SlotTable, Zeros, Utf8.Encode, PackU32;
    LayoutSplit(m, n, s);
    RecordsLength(m, s);
  }

  /** When every declared path length is the encoded length, slot `i` points at entry `i`'s record, which spans its size. */
  lemma SaveRecordAt(m: PathCount, n: nat, s: seq<FileEntry>, i: nat)
    requires SelfConsistent(m, s) && Save(m, n, s).Success? && i < |s|
    ensures var b := Save(m, n, s).value;
      var off := UnpackU32(b[4 + 4 * i..8 + 4 * i]);
      RecordFits(m, s[i]) && off + RecordSize(m, s[i]) <= |b| &&
      b[off..off + RecordSize(m, s[i])] == Record(m, s[i])
  {
    hide Layout, Records, SlotTable, Zeros, Utf8.Encode, PackU32, UnpackU32;
    SaveSlot(m, n, s, i);
    LayoutRecord(m, n, s, i);
  }

  // ---- the source as written, on a non-ASCII path ----

  /**
   * The source writes `len(path)` (characters) as pathLength but the UTF-8
   * bytes of the path. For the one-entry archive holding the empty file
   * "é" (U+00E9, two bytes in UTF-8) with index size 1, `save` succeeds
   * but `load` reads a pathLength of 1, takes the lone lead byte 0xC3 as
   * the path, and fails to decode it.
   */
  lemma CharCountBreaksRoundTrip()
    ensures var s := [FileEntry([0xE9 as char], [])];
      Save(CharCount, 1, s).Success? && Load(Save(CharCount, 1, s).value) == Failure(InvalidPath)
  {
    hide Layout, Records, Record, SlotTable, Zeros, Utf8.Encode, Utf8.Decode, PackU32, DecodeSlot;
    var s := [FileEntry([0xE9 as char], [])];
    var b := [1, 0, 0, 0, 8, 0, 0, 0, 0, 0, 0, 0, 1, 0, 0, 0, 0xC3, 0xA9];
    assert Save(CharCount, 1, s) == Success(b) by {
      LayoutOfAccented();
    }
    assert SlotsOf(b, 1) == [Bad(InvalidPath)] by {
      DecodeAccented();
    }
    assert UnpackU32(b[..4]) == 1 by {
      assert b[..4] == [1, 0, 0, 0];
    }
    assert Walk([Bad(InvalidPath)]) == Scan([], Some(InvalidPath)) by {
      assert [Bad(InvalidPath)][..0] == [];
    }
  }

  /** Its only slot points at a record whose pathLength of 1 takes the lone lead byte 0xC3 as the path. */
  lemma DecodeAccented()
    ensures DecodeSlot([1, 0, 0, 0, 8, 0, 0, 0, 0, 0, 0, 0, 1, 0, 0, 0, 0xC3, 0xA9], 0) == Bad(InvalidPath)
  {
    var b: seq<byte> := [1, 0, 0, 0, 8, 0, 0, 0, 0, 0, 0, 0, 1, 0, 0, 0, 0xC3, 0xA9];
    assert Read(b, 4, 4) == [8, 0, 0, 0];
    assert UnpackU32([8, 0, 0, 0]) == 8;
    var head := Read(b, 8, 8);
    assert head == [0, 0, 0, 0, 1, 0, 0, 0];
    assert UnpackU32(head[4..]) == 1 by {
      assert head[4..] == [1, 0, 0, 0];
    }
    assert Read(b, 16, 1) == [0xC3];
    assert Utf8.Decode([0xC3]) == None;
  }

  /** The bytes the source writes for the one-entry archive holding the empty file "é" with index size 1. */
  lemma LayoutOfAccented()
    ensures var s := [FileEntry([0xE9 as char], [])];
      |s| <= 1 && Packable(CharCount, 1, s) &&
      Layout(CharCount, 1, s) == [1, 0, 0, 0, 8, 0, 0, 0, 0, 0, 0, 0, 1, 0, 0, 0, 0xC3, 0xA9]
  {
    hide SlotTable, Records, Record, Utf8.Encode;
    var s := [FileEntry([0xE9 as char], [])];
    SlotTableOfAccented();
    RecordsOfAccented();
    assert PackU32(1) == [1, 0, 0, 0];
    assert Zeros(0) == [];
  }

  lemma SlotTableOfAccented()
    ensures var s := [FileEntry([0xE9 as char], [])];
      Packable(CharCount, 1, s) && SlotTable(CharCount, 1, s, 1) == [8, 0, 0, 0]
  {
    var s := [FileEntry([0xE9 as char], [])];
    assert s[..0] == [];
    assert SlotOffset(CharCount, 1, s, 0) == 8;
    assert PackU32(8) == [8, 0, 0, 0];
  }

  lemma RecordsOfAccented()
    ensures var s := [FileEntry([0xE9 as char], [])];
      RecordsFit(CharCount, s) && Records(CharCount, s) == [0, 0, 0, 0, 1, 0, 0, 0, 0xC3, 0xA9]
  {
    var e := FileEntry([0xE9 as char], []);
    var s := [e];
    assert s[..0] == [];
    assert Utf8.Encode(e.path) == [0xC3, 0xA9] by {
      assert e.path[1..] == [];
      assert Utf8.EncodeChar(0xE9 as char) == [0xC3, 0xA9];
    }
    assert PackU32(0) == [0, 0, 0, 0];
    assert PackU32(1) == [1, 0, 0, 0];
    assert Record(CharCount, e) == [0, 0, 0, 0] + [1, 0, 0, 0] + [0xC3, 0xA9] + [];
  }

  /**
   * The source as written can also load a different entry without any
   * error: "éa" with contents "xy" is saved with a pathLength of 2 before
   * the three path bytes C3 A9 61, so `load` reads "é" as the path and
   * takes "ax" as the contents.
   */
  lemma CharCountLoadsWrongEntry()
    ensures var s := [FileEntry([0xE9 as char, 'a'], [0x78, 0x79])];
      Save(CharCount, 1, s).Success? &&
      Load(Save(CharCount, 1, s).value) == Success(Archive(1, [FileEntry([0xE9 as char], [0x61, 0x78])]))
  {
    hide Layout, Records, Record, SlotTable, Zeros, Utf8.Encode, Utf8.Decode, PackU32, DecodeSlot, Load;
    var s := [FileEntry([0xE9 as char, 'a'], [0x78, 0x79])];
    assert Save(CharCount, 1, s) == Success([1, 0, 0, 0, 8, 0, 0, 0, 2, 0, 0, 0, 2, 0, 0, 0, 0xC3, 0xA9, 0x61, 0x78, 0x79]) by {
      LayoutOfMixed();
    }
    LoadMixed();
  }

  /** `load` of those bytes: one slot, holding the entry "é" with contents "ax". */
  lemma LoadMixed()
    ensures Load([1, 0, 0, 0, 8, 0, 0, 0, 2, 0, 0, 0, 2, 0, 0, 0, 0xC3, 0xA9, 0x61, 0x78, 0x79])
      == Success(Archive(1, [FileEntry([0xE9 as char], [0x61, 0x78])]))
  {
    hide DecodeSlot;
    var b: seq<byte> := [1, 0, 0, 0, 8, 0, 0, 0, 2, 0, 0, 0, 2, 0, 0, 0, 0xC3, 0xA9, 0x61, 0x78, 0x79];
    var e := FileEntry([0xE9 as char], [0x61, 0x78]);
    assert UnpackU32(b[..4]) == 1 by {
      assert b[..4] == [1, 0, 0, 0];
    }
    assert SlotsOf(b, 1) == [Found(e)] by {
      DecodeMixed();
    }
    assert Walk([Found(e)]) == Scan([e], None) by {
      assert [Found(e)][..0] == [];
    }
  }

  /** Its only record declares two path bytes, which hold exactly "é"; the contents read then starts at the "a". */
  lemma DecodeMixed()
    ensures DecodeSlot([1, 0, 0, 0, 8, 0, 0, 0, 2, 0, 0, 0, 2, 0, 0, 0, 0xC3, 0xA9, 0x61, 0x78, 0x79], 0)
      == Found(FileEntry([0xE9 as char], [0x61, 0x78]))
  {
    hide Utf8.Decode;
    var b: seq<byte> := [1, 0, 0, 0, 8, 0, 0, 0, 2, 0, 0, 0, 2, 0, 0, 0, 0xC3, 0xA9, 0x61, 0x78, 0x79];
    assert Read(b, 4, 4) == [8, 0, 0, 0];
    assert UnpackU32([8, 0, 0, 0]) == 8;
    var head := Read(b, 8, 8);
    assert head == [2, 0, 0, 0, 2, 0, 0, 0];
    assert UnpackU32(head[..4]) == 2 by {
      assert head[..4] == [2, 0, 0, 0];
    }
    assert UnpackU32(head[4..]) == 2 by {
      assert head[4..] == [2, 0, 0, 0];
    }
    assert Read(b, 16, 2) == [0xC3, 0xA9];
    DecodeAccentBytes();
    assert Read(b, 18, 2) == [0x61, 0x78];
  }

  /** The two bytes C3 A9 are the UTF-8 encoding of "é". */
  lemma DecodeAccentBytes()
    ensures Utf8.Decode([0xC3, 0xA9]) == Some([0xE9 as char])
  {
    var a: seq<byte> := [0xC3, 0xA9];
    assert Utf8.DecodeChar(a) == Some(Utf8.Decoded(0xE9 as char, 2));
    assert a[2..] == [] && Utf8.Decode([]) == Some([]);
    assert [0xE9 as char] + [] == [0xE9 as char];
  }

  /** The bytes the source writes for "éa" holding "xy" with index size 1. */
  lemma LayoutOfMixed()
    ensures var s := [FileEntry([0xE9 as char, 'a'], [0x78, 0x79])];
      |s| <= 1 && Packable(CharCount, 1, s) &&
      Layout(CharCount, 1, s) == [1, 0, 0, 0, 8, 0, 0, 0, 2, 0, 0, 0, 2, 0, 0, 0, 0xC3, 0xA9, 0x61, 0x78, 0x79]
  {
    hide SlotTable, Records, Record, Utf8.Encode;
    SlotTableOfMixed();
    RecordsOfMixed();
    assert PackU32(1) == [1, 0, 0, 0];
    assert Zeros(0) == [];
  }

  lemma SlotTableOfMixed()
    ensures var s := [FileEntry([0xE9 as char, 'a'], [0x78, 0x79])];
      Packable(CharCount, 1, s) && SlotTable(CharCount, 1, s, 1) == [8, 0, 0, 0]
  {
    var s := [FileEntry([0xE9 as char, 'a'], [0x78, 0x79])];
    assert s[..0] == [];
    assert SlotOffset(CharCount, 1, s, 0) == 8;
    assert PackU32(8) == [8, 0, 0, 0];
  }

  lemma RecordsOfMixed()
    ensures var s := [FileEntry([0xE9 as char, 'a'], [0x78, 0x79])];
      RecordsFit(CharCount, s) && Records(CharCount, s) == [2, 0, 0, 0, 2, 0, 0, 0, 0xC3, 0xA9, 0x61, 0x78, 0x79]
  {
    var e := FileEntry([0xE9 as char, 'a'], [0x78, 0x79]);
    var s := [e];
    assert s[..0] == [];
    assert Utf8.Encode(e.path) == [0xC3, 0xA9, 0x61] by {
      assert e.path[1..] == ['a'] && e.path[1..][1..] == [];
      assert Utf8.EncodeChar(0xE9 as char) == [0xC3, 0xA9];
      assert Utf8.Encode(['a']) == [0x61];
    }
    assert PackU32(2) == [2, 0, 0, 0];
    assert Record(CharCount, e) == [2, 0, 0, 0] + [2, 0, 0, 0] + [0xC3, 0xA9, 0x61] + [0x78, 0x79];
  }
}

=== FILE: entries.dfy ===
/** The in-memory file entry of an archive: a path and the file's bytes. */
module Entries {
  import opened Bytes

  /**
   * One file of the archive. The path is a Python `str`, `/`-separated and
   * relative to the archive root; the contents are the file's bytes.
   */
  datatype FileEntry = FileEntry(path: string, contents: seq<byte>)
  {
    /**
     * The size the source gives an entry: two 4-byte length fields, the
     * path counted in characters, and the contents.
     */
    function Size(): (r: nat)
      ensures r >= 8 && r - 8 == |path| + |contents|
    {
      8 + |path| + |contents|
    }
  }
}

=== FILE: load_lemmas.dfy ===
/**
 * What `load` makes of any file, not only of one `save` wrote: which
 * slots are skipped, which entries are appended and in what order, and
 * which failure ends the walk.
 */
module LoadLemmas {
  import opened Wrappers
  import opened Bytes
  import Utf8
  import opened Entries
  import opened Codec
  import opened CodecLemmas

  /** The entries of the slots that hold a record, in ascending slot order. */
  function FoundEntries(slots: seq<Slot>): (r: seq<FileEntry>)
    ensures |r| <= |slots|
    ensures forall e | e in r :: Found(e) in slots
  {
    if slots == [] then []
    else
      var init := slots[..|slots| - 1];
      var last := slots[|slots| - 1];
      assert forall x | x in init :: x in slots;
      FoundEntries(init) + if last.Found? then [last.entry] else []
  }

  /**
   * The record of slot `i` is entry number `k` of the result, where `k`
   * counts the records of the slots before `i`; so the entries follow the
   * slots' order, one per record.
   */
  lemma {:induction false} FoundEntriesAt(slots: seq<Slot>, i: nat)
    requires i < |slots| && slots[i].Found?
    ensures |FoundEntries(slots[..i])| < |FoundEntries(slots)|
    ensures FoundEntries(slots)[|FoundEntries(slots[..i])|] == slots[i].entry
  {
    var init := slots[..|slots| - 1];
    if i < |slots| - 1 {
      FoundEntriesAt(init, i);
      assert init[..i] == slots[..i] && init[i] == slots[i];
    } else {
      assert slots[..i] == init;
    }
  }

  /** The walk fails exactly when some slot fails. */
  lemma {:induction false} WalkFails(slots: seq<Slot>)
    ensures Walk(slots).failure.None? <==> forall i | 0 <= i < |slots| :: !slots[i].Bad?
  {
    if slots != [] {
      var init := slots[..|slots| - 1];
      WalkFails(init);
      if Walk(init).failure.Some? {
        var i :| 0 <= i < |init| && init[i].Bad?;
        assert slots[i].Bad?;
      } else {
        forall i | 0 <= i < |init| ensures !slots[i].Bad? {
          assert init[i] == slots[i];
        }
      }
    }
  }

  /** Without a failing slot, the walk collects the entries of all records, in slot order. */
  lemma {:induction false} WalkClean(slots: seq<Slot>)
    requires forall i | 0 <= i < |slots| :: !slots[i].Bad?
    ensures Walk(slots) == Scan(FoundEntries(slots), None)
  {
    if slots != [] {
      var init := slots[..|slots| - 1];
      forall i | 0 <= i < |init| ensures !init[i].Bad? {
        assert init[i] == slots[i];
      }
      WalkClean(init);
    }
  }

  /** The first failing slot `i` ends the walk with its error, after the records of the slots before it. */
  lemma WalkFirstBad(slots: seq<Slot>, i: nat)
    requires i < |slots| && slots[i].Bad?
    requires forall j | 0 <= j < i :: !slots[j].Bad?
    ensures Walk(slots) == Scan(FoundEntries(slots[..i]), Some(slots[i].error))
  {
    var init := slots[..i];
    forall j | 0 <= j < |init| ensures !init[j].Bad? {
      assert init[j] == slots[j];
    }
    WalkClean(init);
    WalkStops(slots, i);
  }

  /**
   * A file of at least four bytes loads exactly when none of its `n`
   * slots fails (`n` being the header's value), and then it loads as the
   * index size `n` with the entries of the records its slots point at, in
   * ascending slot order; an all-zero slot adds nothing.
   */
  lemma LoadSucceeds(data: seq<byte>)
    requires |data| >= 4
    ensures var n := UnpackU32(data[..4]);
      (Load(data).Success? <==> forall i | 0 <= i < n :: !DecodeSlot(data, i).Bad?) &&
      (Load(data).Success? ==> Load(data).value == Archive(n, FoundEntries(SlotsOf(data, n))))
  {
    hide DecodeSlot, FoundEntries;
    var n := UnpackU32(data[..4]);
    var slots := SlotsOf(data, n);
    WalkFails(slots);
    if forall i | 0 <= i < n :: !DecodeSlot(data, i).Bad? {
      WalkClean(slots);
    }
  }

  /** The first failing slot decides the error `load` raises. */
  lemma LoadFailsAt(data: seq<byte>, i: nat)
    requires |data| >= 4 && i < UnpackU32(data[..4]) && DecodeSlot(data, i).Bad?
    requires forall j | 0 <= j < i :: !DecodeSlot(data, j).Bad?
    ensures Load(data) == Failure(DecodeSlot(data, i).error)
  {
    hide DecodeSlot, FoundEntries;
    var n := UnpackU32(data[..4]);
    WalkFirstBad(SlotsOf(data, n), i);
  }

  /**
   * A record that decodes holds the path whose UTF-8 encoding is exactly
   * the `pathLength` bytes read after the two length fields, and the
   * `contentLength` bytes after those, cut short where the file ends.
   */
  lemma FoundRecord(data: seq<byte>, offset: nat)
    requires DecodeRecord(data, offset).Found?
    ensures offset + 8 <= |data|
    ensures var e := DecodeRecord(data, offset).entry;
      var pathBytes := Read(data, offset + 8, UnpackU32(data[offset + 4..offset + 8]));
      Utf8.Encode(e.path) == pathBytes &&
      e.contents == Read(data, offset + 8 + |pathBytes|, UnpackU32(data[offset..offset + 4]))
  {
    var head := Read(data, offset, 8);
    assert head[..4] == data[offset..offset + 4] && head[4..] == data[offset + 4..offset + 8];
    var pathBytes := Read(data, offset + 8, UnpackU32(data[offset + 4..offset + 8]));
    Utf8.EncodeDecode(pathBytes);
  }
}

=== FILE: pack.dfy ===
/**
 * The `FTLPack` object: an entry list and a declared index size, filled by
 * `load` or `construct` and written out by `save` or `destruct`.
 */
module Pack {
  import opened Wrappers
  import opened Bytes
  import Utf8
  import opened Entries
  import opened Codec
  import opened Paths
  import opened Tree
  import CodecLemmas

  class FTLPack {
    var index: seq<FileEntry>
    var indexSize: nat

    /** An empty pack, as `FTLPack()` without a path. */
    constructor ()
      ensures index == [] && indexSize == 0
    {
      index := [];
      indexSize := 0;
    }

    /**
     * Reads the archive held in `data`. The entry list is emptied first;
     * on a failure the pack keeps the index size read so far (the old one
     * when the header itself is short) and the entries of the slots before
     * the failing one.
     */
    method Load(data: seq<byte>) returns (failure: Option<LoadError>)
      modifies this
      ensures failure.None? <==> Codec.Load(data).Success?
      ensures failure.None? ==> Codec.Load(data) == Success(Archive(indexSize, index))
      ensures failure.Some? ==> Codec.Load(data) == Failure(failure.value)
      ensures |data| < 4 ==> index == [] && indexSize == old(indexSize)
      ensures |data| >= 4 ==>
        indexSize == UnpackU32(data[..4]) && index == Walk(SlotsOf(data, indexSize)).entries
    {
      hide Walk, SlotsOf, Utf8.Decode, UnpackU32, Read;
      index := [];
      var header := Read(data, 0, 4);
      if |header| < 4 {
        return Some(Truncated);
      }
      indexSize := UnpackU32(header);
      CodecLemmas.WalkAllEmpty(data, 0);
      var i := 0;
      while i < indexSize
        invariant 0 <= i <= indexSize && indexSize == UnpackU32(header)
        invariant Walk(SlotsOf(data, i)) == Scan(index, None)
      {
        NextSlot(data, i);
        var raw := Read(data, 4 + 4 * i, 4);
        if |raw| < 4 {
          FailureStops(data, i, indexSize);
          return Some(Truncated);
        }
        var offset := UnpackU32(raw);
        if offset != 0 {
          assert DecodeSlot(data, i) == DecodeRecord(data, offset);
          var head := Read(data, offset, 8);
          if |head| < 8 {
            FailureStops(data, i, indexSize);
            return Some(Truncated);
          }
          var size := UnpackU32(head[..4]);
          var pathBytes := Read(data, offset + 8, UnpackU32(head[4..]));
          var path := Utf8.Decode(pathBytes);
          if path.None? {
            assert DecodeRecord(data, offset) == Bad(InvalidPath);
            FailureStops(data, i, indexSize);
            return Some(InvalidPath);
          }
          var entry := FileEntry(path.value, Read(data, offset + 8 + |pathBytes|, size));
          assert DecodeRecord(data, offset) == Found(entry);
          index := index + [entry];
        }
        i := i + 1;
      }
      assert data[..4] == header;
      return None;
    }

    /** After a failure at slot `i`, the walk over all `n` slots ends where it failed. */
    static lemma FailureStops(data: seq<byte>, i: nat, n: nat)
      requires i < n && Walk(SlotsOf(data, i)).failure.None? && DecodeSlot(data, i).Bad?
      ensures Walk(SlotsOf(data, n)) == Scan(Walk(SlotsOf(data, i)).entries, Some(DecodeSlot(data, i).error))
    {
      CodecLemmas.SlotsOfPrefix(data, i, n);
      CodecLemmas.WalkStops(SlotsOf(data, n), i);
    }

    /** One more slot takes the walk one step further. */
    static lemma NextSlot(data: seq<byte>, i: nat)
      ensures Walk(SlotsOf(data, i + 1)) ==
        var prev := Walk(SlotsOf(data, i));
        if prev.failure.Some? then prev
        else match DecodeSlot(data, i)
          case Empty => prev
          case Bad(e) => Scan(prev.entries, Some(e))
          case Found(entry) => Scan(prev.entries + [entry], None)
    {
      var slots := SlotsOf(data, i + 1);
      assert slots[..|slots| - 1] == SlotsOf(data, i);
    }

    /**
     * The bytes written by `save`, with each path's length counted in its
     * UTF-8 bytes (`ByteCount`): `IndexTooSmall` before anything is
     * written, `Overflow` where a `struct.pack` raises, and otherwise a
     * file that loads back as this pack.
     */
    method Save() returns (r: Result<seq<byte>, SaveError>)
      ensures r == Codec.Save(ByteCount, indexSize, index)
      ensures r.Success? ==> Codec.Load(r.value) == Success(Archive(indexSize, index))
    {
      hide SlotTable, Records, Record, Zeros, PackU32, Utf8.Encode, Codec.Load;
      if |index| > indexSize {
        return Failure(IndexTooSmall(|index|, indexSize));
      }
      if indexSize >= U32_LIMIT {
        return Failure(Overflow);
      }
      var slots := WriteIndex(indexSize, index);
      if slots.None? {
        return Failure(Overflow);
      }
      var records := WriteRecords(index);
      if records.None? {
        return Failure(Overflow);
      }
      r := Success(slots.value + records.value);
      CodecLemmas.LoadSaveByteCount(indexSize, index);
    }

    /**
     * The first half of `save`: the header, then one offset per entry kept
     * in a running total, then the zero slots; `None` where an offset does
     * not fit a `<L` field.
     */
    static method WriteIndex(n: nat, s: seq<FileEntry>) returns (r: Option<seq<byte>>)
      requires |s| <= n < U32_LIMIT
      ensures r.Some? <==> SlotsFit(ByteCount, n, s, |s|)
      ensures r.Some? ==> r.value == PackU32(n) + SlotTable(ByteCount, n, s, |s|) + Zeros(4 * (n - |s|))
    {
      hide Records, Record, PackU32, Utf8.Encode;
      var out := PackU32(n);
      var offset := DataStart(n);
      var i := 0;
      while i < |s|
        invariant 0 <= i <= |s|
        invariant SlotsFit(ByteCount, n, s, i)
        invariant offset == SlotOffset(ByteCount, n, s, i)
        invariant out == PackU32(n) + SlotTable(ByteCount, n, s, i)
      {
        if offset >= U32_LIMIT {
          return None;
        }
        out := out + PackU32(offset);
        assert s[..i + 1][..i] == s[..i];
        offset := offset + 8 + |Utf8.Encode(s[i].path)| + |s[i].contents|;
        i := i + 1;
      }
      return Some(out + Zeros(4 * (n - |s|)));
    }

    /**
     * The second half of `save`: for each entry its content and path
     * lengths, its UTF-8 path and its contents; `None` where a length does
     * not fit a `<L` field.
     */
    static method WriteRecords(s: seq<FileEntry>) returns (r: Option<seq<byte>>)
      ensures r.Some? <==> RecordsFit(ByteCount, s)
      ensures r.Some? ==> r.value == Records(ByteCount, s)
    {
      hide PackU32, Utf8.Encode;
      var out := [];
      var j := 0;
      while j < |s|
        invariant 0 <= j <= |s|
        invariant RecordsFit(ByteCount, s[..j])
        invariant out == Records(ByteCount, s[..j])
      {
        var e := s[j];
        var path := Utf8.Encode(e.path);
        if |e.contents| >= U32_LIMIT || |path| >= U32_LIMIT {
          return None;
        }
        assert s[..j + 1][..j] == s[..j];
        out := out + PackU32(|e.contents|) + PackU32(|path|) + path + e.contents;
        j := j + 1;
      }
      assert s[..|s|] == s;
      return Some(out);
    }

    /**
     * Fills the pack from the paths a walk of `root` yields: one entry per
     * regular file, in walk order, and an index size of
     * `max(len(index), minIndex)`, so that a following `save` never raises
     * `IndexTooSmall`.
     */
    method Construct(root: string, sep: char, walk: seq<Walked>, minIndex: int := DEFAULT_MIN_INDEX)
      modifies this
      ensures index == Collect(root, sep, walk)
      ensures indexSize == IndexSizeFor(|index|, minIndex)
      ensures !Codec.Save(ByteCount, indexSize, index).Failure? ||
              !Codec.Save(ByteCount, indexSize, index).error.IndexTooSmall?
    {
      index := [];
      var clip := |root| + 1;
      for k := 0 to |walk|
        invariant index == Collect(root, sep, walk[..k])
      {
        assert walk[..k + 1][..k] == walk[..k];
        match walk[k]
        case NotFile(_) =>
        case File(path, contents) =>
          index := index + [FileEntry(Replace(Clip(path, clip), sep, '/'), contents)];
      }
      assert walk[..|walk|] == walk;
      indexSize := IndexSizeFor(|index|, minIndex);
    }

    /**
     * Writes every entry, in order, into the file system `files` below
     * `root`, overwriting what is there; nothing else is removed.
     */
    method Destruct(root: string, sep: char, files: map<string, seq<byte>>) returns (written: map<string, seq<byte>>)
      ensures written == Extract(files, root, sep, index)
    {
      written := files;
      for k := 0 to |index|
        invariant written == Extract(files, root, sep, index[..k])
      {
        assert index[..k + 1][..k] == index[..k];
        var target := Join(root, Replace(index[k].path, '/', sep), sep);
        written := written[target := index[k].contents];
      }
      assert index[..|index|] == index;
    }
  }
}

=== FILE: paths.dfy ===
/**
 * The string side of mapping between archive paths (always `/`-separated)
 * and host paths (separated by the host's `os.path.sep`).
 */
module Paths {

  /** Python's `s[k:]`: the characters from index `k` on, none when `k` is past the end. */
  function Clip(s: string, k: nat): (r: string)
    ensures k <= |s| ==> s == s[..k] + r
    ensures k >= |s| ==> r == []
  {
    if k <= |s| then s[k..] else []
  }

  /** `s.replace(from, to)` for single characters. */
  function Replace(s: string, from: char, to: char): (r: string)
    ensures |r| == |s|
    ensures forall i | 0 <= i < |s| :: r[i] == if s[i] == from then to else s[i]
  {
    if s == [] then [] else [if s[0] == from then to else s[0]] + Replace(s[1..], from, to)
  }

  /**
   * The archive path `construct` gives a file the walk found at `found`
   * under `root`: `len(root) + len(os.path.sep)` characters are clipped off
   * the front and host separators become `/`.
   */
  function ArchivePath(root: string, sep: char, found: string): (r: string)
    ensures |r| == if |root| < |found| then |found| - |root| - 1 else 0
    ensures sep != '/' ==> sep !in r
  {
    Replace(Clip(found, |root| + 1), sep, '/')
  }

  /** The host form `destruct` gives an archive path: `/` becomes the host separator. */
  function HostPath(path: string, sep: char): (r: string)
    ensures |r| == |path|
    ensures sep != '/' ==> '/' !in r
  {
    Replace(path, '/', sep)
  }

  /**
   * `os.path.join(a, b)` with the POSIX rules over separator `sep`: an
   * absolute `b` replaces `a`; otherwise a separator is put between them
   * unless `a` is empty or already ends with one.
   */
  function Join(a: string, b: string, sep: char): (r: string)
    ensures |b| > 0 && b[0] == sep ==> r == b
    ensures !(|b| > 0 && b[0] == sep) ==> a <= r && |a| + |b| <= |r| && r[|r| - |b|..] == b
  {
    if |b| > 0 && b[0] == sep then b
    else if a == [] || a[|a| - 1] == sep then a + b
    else a + [sep] + b
  }

  /** The path of a file found directly below `root`, one separator in between, maps to its relative path with `/` separators. */
  lemma ArchivePathOfChild(root: string, sep: char, rel: string)
    ensures ArchivePath(root, sep, root + [sep] + rel) == Replace(rel, sep, '/')
    ensures sep != '/' ==> sep !in ArchivePath(root, sep, root + [sep] + rel)
  {
    assert Clip(root + [sep] + rel, |root| + 1) == rel;
  }

  /**
   * Turning a relative host path into an archive path and back gives the
   * path again exactly when the host separator is `/` or the path has no
   * `/` of its own.
   */
  lemma HostOfArchivePath(rel: string, sep: char)
    ensures HostPath(Replace(rel, sep, '/'), sep) == rel <==> (sep == '/' || '/' !in rel)
  {
    var back := HostPath(Replace(rel, sep, '/'), sep);
    if sep != '/' && '/' in rel {
      var i :| 0 <= i < |rel| && rel[i] == '/';
      assert back[i] == sep;
    } else {
      assert forall i | 0 <= i < |rel| :: back[i] == rel[i];
    }
  }

  /** Joining a directory with different relative paths gives different paths. */
  lemma JoinInjective(a: string, b1: string, b2: string, sep: char)
    requires !(|b1| > 0 && b1[0] == sep) && !(|b2| > 0 && b2[0] == sep)
    ensures Join(a, b1, sep) == Join(a, b2, sep) ==> b1 == b2
  {
    var p := if a == [] || a[|a| - 1] == sep then a else a + [sep];
    assert Join(a, b1, sep) == p + b1 && Join(a, b2, sep) == p + b2;
    assert b1 == (p + b1)[|p|..];
  }
}

=== FILE: scenarios.dfy ===
/**
 * Concrete archives: the empty one, a small one with two ASCII paths, and
 * a file whose path is cut short by the end of the file.
 */
module Scenarios {
  import opened Wrappers
  import opened Bytes
  import Utf8
  import opened Entries
  import opened Codec
  import opened CodecLemmas

  /** An index of size 0 with no entries saves as four zero bytes, and those load back as the empty archive. */
  lemma EmptyArchive(m: PathCount)
    ensures Save(m, 0, []) == Success([0, 0, 0, 0])
    ensures Load([0, 0, 0, 0]) == Success(Archive(0, []))
  {
    assert Packable(m, 0, []);
    assert Layout(m, 0, []) == [0, 0, 0, 0] by {
      assert PackU32(0) == [0, 0, 0, 0];
      assert SlotTable(m, 0, [], 0) == [] && Zeros(0) == [] && Records(m, []) == [];
    }
    var b: seq<byte> := [0, 0, 0, 0];
    assert UnpackU32(b[..4]) == 0 by {
      assert b[..4] == b;
    }
  }

  function TwoEntries(): seq<FileEntry> {
    [FileEntry("a.txt", [0x68, 0x69]), FileEntry("b/c.txt", [0x62, 0x79, 0x65])]
  }

  /**
   * `a.txt` holding "hi" and `b/c.txt` holding "bye", with index size 2:
   * the data region starts at 12, the first record takes 8 + 5 + 2 = 15
   * bytes so the second slot holds 27, the file is 12 + 15 + 18 bytes
   * long, and loading it gives back both entries in order.
   */
  lemma TwoEntryArchive()
    ensures Save(CharCount, 2, TwoEntries()).Success?
    ensures var b := Save(CharCount, 2, TwoEntries()).value;
      |b| == 45 && b[..4] == [2, 0, 0, 0] &&
      UnpackU32(b[4..8]) == 12 && UnpackU32(b[8..12]) == 27 &&
      Load(b) == Success(Archive(2, TwoEntries()))
  {
    hide Layout, Records, Record, SlotTable, Zeros, Utf8.Encode, UnpackU32, Load, SlotOffset, SumSizes;
    var s := TwoEntries();
    TwoEntryOffsets();
    var b := Save(CharCount, 2, s).value;
    SaveSlot(CharCount, 2, s, 0);
    SaveSlot(CharCount, 2, s, 1);
    SaveLength(CharCount, 2, s);
    assert b[..4] == [2, 0, 0, 0] by {
      SaveHeader(CharCount, 2, s);
      PackUnpack(b[..4]);
    }
    LoadSaveAscii(2, s);
  }

  /** The slot values and total size of the two-entry archive, and that it is packable and self-consistent. */
  lemma TwoEntryOffsets()
    ensures var s := TwoEntries();
      SlotOffset(CharCount, 2, s, 0) == 12 && SlotOffset(CharCount, 2, s, 1) == 27 &&
      SumSizes(CharCount, s) == 33 && Packable(CharCount, 2, s) && AllAscii(s) &&
      SelfConsistent(CharCount, s)
  {
    hide Utf8.Encode, Utf8.IsAscii, PackU32, UnpackU32;
    var s := TwoEntries();
    assert s[..0] == [] && s[..1] == [s[0]] && s[..2] == s;
    assert SumSizes(CharCount, s[..1]) == 15;
    assert AllAscii(s) by {
      TwoEntryPathsAscii();
    }
    SelfConsistentIff(s);
  }

  lemma TwoEntryPathsAscii()
    ensures Utf8.IsAscii(TwoEntries()[0].path) && Utf8.IsAscii(TwoEntries()[1].path)
  {
    var s := TwoEntries();
    assert s[0].path == "a.txt" && s[1].path == "b/c.txt";
  }

  /**
   * A record that declares a five-byte path where the file holds only one
   * more byte: `f.read(5)` returns that byte, so `load` takes "a" as the
   * path and, with a content length of 0, the empty contents.
   */
  lemma ShortPathLoads()
    ensures Load([1, 0, 0, 0, 8, 0, 0, 0, 0, 0, 0, 0, 5, 0, 0, 0, 0x61]) == Success(Archive(1, [FileEntry("a", [])]))
  {
    hide DecodeSlot;
    var b: seq<byte> := [1, 0, 0, 0, 8, 0, 0, 0, 0, 0, 0, 0, 5, 0, 0, 0, 0x61];
    assert UnpackU32(b[..4]) == 1 by {
      assert b[..4] == [1, 0, 0, 0];
    }
    assert SlotsOf(b, 1) == [Found(FileEntry("a", []))] by {
      ShortPathSlot();
    }
    assert Walk([Found(FileEntry("a", []))]) == Scan([FileEntry("a", [])], None) by {
      assert [Found(FileEntry("a", []))][..0] == [];
    }
  }

  lemma ShortPathSlot()
    ensures DecodeSlot([1, 0, 0, 0, 8, 0, 0, 0, 0, 0, 0, 0, 5, 0, 0, 0, 0x61], 0) == Found(FileEntry("a", []))
  {
    var b: seq<byte> := [1, 0, 0, 0, 8, 0, 0, 0, 0, 0, 0, 0, 5, 0, 0, 0, 0x61];
    assert Read(b, 4, 4) == [8, 0, 0, 0];
    assert UnpackU32([8, 0, 0, 0]) == 8;
    var head := Read(b, 8, 8);
    assert head == [0, 0, 0, 0, 5, 0, 0, 0];
    assert UnpackU32(head[..4]) == 0 by {
      assert head[..4] == [0, 0, 0, 0];
    }
    assert UnpackU32(head[4..]) == 5 by {
      assert head[4..] == [5, 0, 0, 0];
    }
    assert Read(b, 16, 5) == [0x61];
    assert Utf8.Decode([0x61]) == Some("a") by {
      var a: seq<byte> := [0x61];
      assert Utf8.DecodeChar(a) == Some(Utf8.Decoded('a', 1));
      assert a[1..] == [] && Utf8.Decode([]) == Some([]);
      assert ['a'] + [] == "a";
    }
    assert Read(b, 17, 0) == [];
  }
}

=== FILE: tree.dfy ===
/**
 * `construct` and `destruct` as functions: building the entry list from
 * the files a directory walk finds, and the files that writing the
 * entries out under a target directory leaves behind.
 *
 * The walk itself is not modelled: it is given as the sequence of paths
 * the loop sees, each already passed through `os.readlink` when it is a
 * link and classified by `os.path.isfile`. The file system `destruct`
 * writes to is a map from host path to contents.
 */
module Tree {
  import opened Bytes
  import opened Entries
  import opened Paths

  /** The index size `construct` uses when none is given. */
  const DEFAULT_MIN_INDEX: int := 2048

  /** One path the walk yields: a regular file with its contents, or anything else. */
  datatype Walked = File(path: string, contents: seq<byte>) | NotFile(path: string)

  /** The entries `construct` appends, in walk order, one per regular file. */
  function Collect(root: string, sep: char, walk: seq<Walked>): (r: seq<FileEntry>)
    ensures |r| <= |walk|
  {
    if walk == [] then []
    else
      var prev := Collect(root, sep, walk[..|walk| - 1]);
      match walk[|walk| - 1]
      case NotFile(_) => prev
      case File(path, contents) => prev + [FileEntry(ArchivePath(root, sep, path), contents)]
  }

  /** `max(count, min_index)`: room for every entry, and never below the requested minimum. */
  function IndexSizeFor(count: nat, minIndex: int): (r: nat)
    ensures r >= count && r >= minIndex
    ensures r == count || r == minIndex
  {
    if count >= minIndex then count else minIndex
  }

  /** Where `destruct` writes an entry: the target directory joined with the entry's host path. */
  function Target(root: string, sep: char, e: FileEntry): (r: string)
    ensures |e.path| > 0 && e.path[0] == '/' ==> r == HostPath(e.path, sep)
    ensures (|e.path| == 0 || (e.path[0] != '/' && e.path[0] != sep)) ==>
      root <= r && |e.path| <= |r| && r[|r| - |e.path|..] == HostPath(e.path, sep)
  {
    Join(root, HostPath(e.path, sep), sep)
  }

  /** The file system after writing every entry of `s`, in order, over `files`. */
  function Extract(files: map<string, seq<byte>>, root: string, sep: char, s: seq<FileEntry>): (r: map<string, seq<byte>>)
    ensures files.Keys <= r.Keys
  {
    if s == [] then files
    else
      var last := s[|s| - 1];
      Extract(files, root, sep, s[..|s| - 1])[Target(root, sep, last) := last.contents]
  }

  // ---- construct ----

  /** The path lies below `root`, one separator in between. */
  predicate IsBelow(root: string, sep: char, path: string) {
    |root| + 1 <= |path| && path[..|root| + 1] == root + [sep]
  }

  /** The regular files the walk yields, in walk order. */
  function Files(walk: seq<Walked>): (r: seq<Walked>)
    ensures |r| <= |walk|
    ensures forall w | w in r :: w.File? && w in walk
  {
    if walk == [] then []
    else
      var init := walk[..|walk| - 1];
      var last := walk[|walk| - 1];
      assert forall w | w in init :: w in walk;
      Files(init) + if last.File? then [last] else []
  }

  /**
   * The `k`-th walked path, when it is a regular file, is file number
   * `|Files(walk[..k])|` of the walk: the files keep their walk order and
   * none is dropped.
   */
  lemma {:induction false} FilesAt(walk: seq<Walked>, k: nat)
    requires k < |walk| && walk[k].File?
    ensures |Files(walk[..k])| < |Files(walk)|
    ensures Files(walk)[|Files(walk[..k])|] == walk[k]
  {
    var init := walk[..|walk| - 1];
    if k < |walk| - 1 {
      FilesAt(init, k);
      assert init[..k] == walk[..k] && init[k] == walk[k];
    } else {
      assert walk[..k] == init;
    }
  }

  /** `construct` skips every path that is not a regular file: it collects the same entries from the files alone. */
  lemma {:induction false} CollectOfFiles(root: string, sep: char, walk: seq<Walked>)
    ensures Collect(root, sep, walk) == Collect(root, sep, Files(walk))
  {
    hide ArchivePath, Files;
    if walk != [] {
      var init := walk[..|walk| - 1];
      var last := walk[|walk| - 1];
      CollectOfFiles(root, sep, init);
      FilesSnoc(walk);
      if last.File? {
        var fs := Files(init) + [last];
        assert fs[..|fs| - 1] == Files(init) && fs[|fs| - 1] == last;
        var e := FileEntry(ArchivePath(root, sep, last.path), last.contents);
        assert Collect(root, sep, walk) == Collect(root, sep, init) + [e];
        assert Collect(root, sep, fs) == Collect(root, sep, Files(init)) + [e];
      } else {
        assert Files(walk) == Files(init) + [] == Files(init);
        assert Collect(root, sep, walk) == Collect(root, sep, init);
      }
    }
  }

  lemma FilesSnoc(walk: seq<Walked>)
    requires walk != []
    ensures var last := walk[|walk| - 1];
      Files(walk) == Files(walk[..|walk| - 1]) + if last.File? then [last] else []
  {
  }

  /**
   * For any walk, `construct` makes exactly one entry per regular file,
   * in walk order: the file at walk position `k` gives entry number
   * `|Files(walk[..k])|`, holding its contents under its archive path.
   */
  lemma CollectAt(root: string, sep: char, walk: seq<Walked>, k: nat)
    requires k < |walk| && walk[k].File?
    ensures |Collect(root, sep, walk)| == |Files(walk)|
    ensures |Files(walk[..k])| < |Collect(root, sep, walk)|
    ensures Collect(root, sep, walk)[|Files(walk[..k])|] ==
      FileEntry(ArchivePath(root, sep, walk[k].path), walk[k].contents)
  {
    CollectOfFiles(root, sep, walk);
    CollectFiles(root, sep, Files(walk));
    FilesAt(walk, k);
  }

  /** Distinct paths among the files of the walk stay distinct among `Files(walk)`. */
  lemma {:induction false} FilesDistinct(walk: seq<Walked>)
    requires forall j, k | 0 <= j < k < |walk| && walk[j].File? && walk[k].File? :: walk[j].path != walk[k].path
    ensures forall i, j | 0 <= i < j < |Files(walk)| :: Files(walk)[i].path != Files(walk)[j].path
  {
    if walk != [] {
      var init := walk[..|walk| - 1];
      var last := walk[|walk| - 1];
      FilesDistinct(init);
      if last.File? {
        var fs := Files(init);
        forall i | 0 <= i < |fs| ensures fs[i].path != last.path {
          assert fs[i] in fs;
          var j :| 0 <= j < |init| && init[j] == fs[i];
          assert walk[j] == fs[i];
        }
      }
    }
  }

  /**
   * When every path the walk yields is a regular file, `construct` makes
   * one entry per file, in walk order, holding the file's contents under
   * its archive path.
   */
  lemma {:induction false} CollectFiles(root: string, sep: char, walk: seq<Walked>)
    requires forall k | 0 <= k < |walk| :: walk[k].File?
    ensures |Collect(root, sep, walk)| == |walk|
    ensures forall k | 0 <= k < |walk| ::
      Collect(root, sep, walk)[k] == FileEntry(ArchivePath(root, sep, walk[k].path), walk[k].contents)
  {
    if walk != [] {
      var init := walk[..|walk| - 1];
      CollectFiles(root, sep, init);
      var prev := Collect(root, sep, init);
      var last := walk[|walk| - 1];
      assert Collect(root, sep, walk) == prev + [FileEntry(ArchivePath(root, sep, last.path), last.contents)];
      forall k | 0 <= k < |walk| - 1
        ensures Collect(root, sep, walk)[k] == FileEntry(ArchivePath(root, sep, walk[k].path), walk[k].contents)
      {
        assert init[k] == walk[k];
      }
    }
  }

  // ---- destruct ----

  /** Writing entries never removes a file, and leaves every file that no entry targets as it was. */
  lemma {:induction false} ExtractKeepsOthers(files: map<string, seq<byte>>, root: string, sep: char, s: seq<FileEntry>, p: string)
    requires forall i | 0 <= i < |s| :: Target(root, sep, s[i]) != p
    ensures p in Extract(files, root, sep, s) <==> p in files
    ensures p in files ==> Extract(files, root, sep, s)[p] == files[p]
  {
    if s != [] {
      ExtractKeepsOthers(files, root, sep, s[..|s| - 1], p);
    }
  }

  /** The last entry written to a target decides its contents. */
  lemma {:induction false} ExtractLastWins(files: map<string, seq<byte>>, root: string, sep: char, s: seq<FileEntry>, i: nat)
    requires i < |s|
    requires forall j | i < j < |s| :: Target(root, sep, s[j]) != Target(root, sep, s[i])
    ensures Target(root, sep, s[i]) in Extract(files, root, sep, s)
    ensures Extract(files, root, sep, s)[Target(root, sep, s[i])] == s[i].contents
  {
    if i < |s| - 1 {
      ExtractLastWins(files, root, sep, s[..|s| - 1], i);
    }
  }

  /**
   * Unpacking what was packed: when every regular file the walk finds lies
   * below `root`, at a distinct relative path that does not start with a
   * separator and holds no `/` of its own (or the host separator is `/`),
   * writing the constructed entries under `dest` puts every file's
   * contents at `dest` joined with its relative path. Whatever else the
   * walk yields (the root itself, directories) is skipped.
   */
  lemma TreeRoundTrip(root: string, sep: char, walk: seq<Walked>, dest: string, files: map<string, seq<byte>>)
    requires forall k | 0 <= k < |walk| && walk[k].File? :: IsBelow(root, sep, walk[k].path)
    requires forall k | 0 <= k < |walk| && walk[k].File? :: var rel := Clip(walk[k].path, |root| + 1);
      !(|rel| > 0 && rel[0] == sep) && (sep == '/' || '/' !in rel)
    requires forall j, k | 0 <= j < k < |walk| && walk[j].File? && walk[k].File? :: walk[j].path != walk[k].path
    ensures var out := Extract(files, dest, sep, Collect(root, sep, walk));
      forall k | 0 <= k < |walk| && walk[k].File? ::
        var target := Join(dest, Clip(walk[k].path, |root| + 1), sep);
        target in out && out[target] == walk[k].contents
  {
    var fs := Files(walk);
    FilesDistinct(walk);
    forall i | 0 <= i < |fs|
      ensures fs[i].File? && IsBelow(root, sep, fs[i].path)
      ensures var rel := Clip(fs[i].path, |root| + 1); !(|rel| > 0 && rel[0] == sep) && (sep == '/' || '/' !in rel)
    {
      assert fs[i] in fs;
      var k :| 0 <= k < |walk| && walk[k] == fs[i];
    }
    FileTreeRoundTrip(root, sep, fs, dest, files);
    CollectOfFiles(root, sep, walk);
    forall k | 0 <= k < |walk| && walk[k].File?
      ensures var target := Join(dest, Clip(walk[k].path, |root| + 1), sep);
        var out := Extract(files, dest, sep, Collect(root, sep, walk));
        target in out && out[target] == walk[k].contents
    {
      FilesAt(walk, k);
      assert fs[|Files(walk[..k])|] == walk[k];
    }
  }

  /** The round trip for a walk that yields only regular files. */
  lemma FileTreeRoundTrip(root: string, sep: char, walk: seq<Walked>, dest: string, files: map<string, seq<byte>>)
    requires forall k | 0 <= k < |walk| :: walk[k].File? && IsBelow(root, sep, walk[k].path)
    requires forall k | 0 <= k < |walk| :: var rel := Clip(walk[k].path, |root| + 1);
      !(|rel| > 0 && rel[0] == sep) && (sep == '/' || '/' !in rel)
    requires forall j, k | 0 <= j < k < |walk| :: walk[j].path != walk[k].path
    ensures var out := Extract(files, dest, sep, Collect(root, sep, walk));
      forall k | 0 <= k < |walk| ::
        var target := Join(dest, Clip(walk[k].path, |root| + 1), sep);
        target in out && out[target] == walk[k].contents
  {
    var s := Collect(root, sep, walk);
    CollectFiles(root, sep, walk);
    forall k | 0 <= k < |walk|
      ensures var target := Join(dest, Clip(walk[k].path, |root| + 1), sep);
        target in Extract(files, dest, sep, s) && Extract(files, dest, sep, s)[target] == walk[k].contents
    {
      forall j | k < j < |s| ensures Target(dest, sep, s[j]) != Target(dest, sep, s[k]) {
        DistinctTargets(root, sep, walk, dest, j, k);
      }
      ExtractLastWins(files, dest, sep, s, k);
      TargetOfWalked(root, sep, walk, dest, k);
    }
  }

  /** The entry made for the `k`-th file is written to `dest` joined with the file's relative path. */
  lemma TargetOfWalked(root: string, sep: char, walk: seq<Walked>, dest: string, k: nat)
    requires k < |walk| && forall i | 0 <= i < |walk| :: walk[i].File?
    requires var rel := Clip(walk[k].path, |root| + 1); sep == '/' || '/' !in rel
    ensures |Collect(root, sep, walk)| == |walk|
    ensures Target(dest, sep, Collect(root, sep, walk)[k]) == Join(dest, Clip(walk[k].path, |root| + 1), sep)
  {
    CollectFiles(root, sep, walk);
    HostOfArchivePath(Clip(walk[k].path, |root| + 1), sep);
  }

  /** Files at distinct paths below `root` are written to distinct targets. */
  lemma DistinctTargets(root: string, sep: char, walk: seq<Walked>, dest: string, j: nat, k: nat)
    requires j < |walk| && k < |walk| && walk[j].path != walk[k].path
    requires forall i | 0 <= i < |walk| :: walk[i].File? && IsBelow(root, sep, walk[i].path)
    requires forall i | 0 <= i < |walk| :: var rel := Clip(walk[i].path, |root| + 1);
      !(|rel| > 0 && rel[0] == sep) && (sep == '/' || '/' !in rel)
    ensures |Collect(root, sep, walk)| == |walk|
    ensures Target(dest, sep, Collect(root, sep, walk)[j]) != Target(dest, sep, Collect(root, sep, walk)[k])
  {
    var rj := Clip(walk[j].path, |root| + 1);
    var rk := Clip(walk[k].path, |root| + 1);
    TargetOfWalked(root, sep, walk, dest, j);
    TargetOfWalked(root, sep, walk, dest, k);
    assert walk[j].path == root + [sep] + rj;
    assert walk[k].path == root + [sep] + rk;
    JoinInjective(dest, rj, rk, sep);
  }
}

=== FILE: utf8.dfy ===
/**
 * Strict UTF-8, as Python's `str.encode()` and `bytes.decode()` use by
 * default. Dafny's `char` is a Unicode scalar value, so every string has an
 * encoding; decoding rejects every byte sequence that is not well-formed
 * UTF-8 (bad lead or continuation bytes, overlong forms, surrogates, code
 * points above U+10FFFF, a sequence cut short).
 */
module Utf8 {
  import opened Wrappers
  import opened Bytes

  /** A string all of whose characters are below U+0080. */
  predicate IsAscii(s: string) {
    forall i | 0 <= i < |s| :: s[i] as int < 0x80
  }

  function EncodeChar(c: char): (r: seq<byte>)
    ensures 1 <= |r| <= 4
    ensures |r| == 1 <==> c as int < 0x80
  {
    var cp := c as int;
    if cp < 0x80 then [cp]
    else if cp < 0x800 then [0xC0 + cp / 0x40, 0x80 + cp % 0x40]
    else if cp < 0x1_0000 then
      [0xE0 + cp / 0x1000, 0x80 + cp / 0x40 % 0x40, 0x80 + cp % 0x40]
    else
      [0xF0 + cp / 0x4_0000, 0x80 + cp / 0x1000 % 0x40, 0x80 + cp / 0x40 % 0x40, 0x80 + cp % 0x40]
  }

  /** The UTF-8 bytes of a string, as `s.encode()`. */
  function Encode(s: string): (r: seq<byte>)
    ensures |r| >= |s|
  {
    if s == [] then [] else EncodeChar(s[0]) + Encode(s[1..])
  }

  predicate IsContinuation(b: byte) {
    0x80 <= b < 0xC0
  }

  /** One decoded character and the number of bytes it took. */
  datatype Decoded = Decoded(c: char, length: nat)

  /**
   * Decodes the character at the head of `b`, following the table of
   * well-formed byte sequences of the Unicode Standard (section 3.9,
   * table 3-7).
   */
  function DecodeChar(b: seq<byte>): (r: Option<Decoded>)
    requires |b| > 0
    ensures r.Some? ==> 1 <= r.value.length <= |b| && r.value.length <= 4
  {
    var b0 := b[0] as int;
    if b0 < 0x80 then Some(Decoded(b0 as char, 1))
    else if 0xC2 <= b0 <= 0xDF then
      if |b| < 2 || !IsContinuation(b[1]) then None
      else Some(Decoded(((b0 - 0xC0) * 0x40 + (b[1] as int - 0x80)) as char, 2))
    else if 0xE0 <= b0 <= 0xEF then
      if |b| < 3 || !IsContinuation(b[1]) || !IsContinuation(b[2]) then None
      else if b0 == 0xE0 && b[1] < 0xA0 then None  // overlong
      else if b0 == 0xED && b[1] >= 0xA0 then None  // surrogate
      else
        Some(Decoded(((b0 - 0xE0) * 0x1000 + (b[1] as int - 0x80) * 0x40 + (b[2] as int - 0x80)) as char, 3))
    else if 0xF0 <= b0 <= 0xF4 then
      if |b| < 4 || !IsContinuation(b[1]) || !IsContinuation(b[2]) || !IsContinuation(b[3]) then None
      else if b0 == 0xF0 && b[1] < 0x90 then None  // overlong
      else if b0 == 0xF4 && b[1] >= 0x90 then None  // above U+10FFFF
      else
        Some(Decoded(((b0 - 0xF0) * 0x4_0000 + (b[1] as int - 0x80) * 0x1000
                      + (b[2] as int - 0x80) * 0x40 + (b[3] as int - 0x80)) as char, 4))
    else None
  }

  /** The string `b.decode()` gives, or `None` where it raises `UnicodeDecodeError`. */
  function Decode(b: seq<byte>): (r: Option<string>)
    decreases |b|
  {
    if b == [] then Some([])
    else match DecodeChar(b)
      case None => None
      case Some(d) =>
        match Decode(b[d.length..])
        case None => None
        case Some(rest) => Some([d.c] + rest)
  }

  /** Decoding the encoding of a character, whatever follows it, gives the character back. */
  lemma DecodeEncodeChar(c: char, rest: seq<byte>)
    ensures DecodeChar(EncodeChar(c) + rest) == Some(Decoded(c, |EncodeChar(c)|))
  {
    var cp := c as int;
    if cp < 0x80 {
      assert (EncodeChar(c) + rest)[0] == cp;
    } else if cp < 0x800 {
      DecodeEncodeTwo(c, rest);
    } else if cp < 0x1_0000 {
      DecodeEncodeThree(c, rest);
    } else {
      DecodeEncodeFour(c, rest);
    }
  }

  lemma DecodeEncodeTwo(c: char, rest: seq<byte>)
    requires 0x80 <= c as int < 0x800
    ensures DecodeChar(EncodeChar(c) + rest) == Some(Decoded(c, 2))
  {
    var cp := c as int;
    var b := EncodeChar(c) + rest;
    assert b[0] == 0xC0 + cp / 0x40 && b[1] == 0x80 + cp % 0x40;
    assert cp == (cp / 0x40) * 0x40 + cp % 0x40;
  }

  lemma DecodeEncodeThree(c: char, rest: seq<byte>)
    requires 0x800 <= c as int < 0x1_0000
    ensures DecodeChar(EncodeChar(c) + rest) == Some(Decoded(c, 3))
  {
    var cp := c as int;
    var b := EncodeChar(c) + rest;
    assert b[0] == 0xE0 + cp / 0x1000 && b[1] == 0x80 + cp / 0x40 % 0x40 && b[2] == 0x80 + cp % 0x40;
    assert cp / 0x40 == (cp / 0x1000) * 0x40 + cp / 0x40 % 0x40;
    assert cp == (cp / 0x40) * 0x40 + cp % 0x40;
  }

  lemma DecodeEncodeFour(c: char, rest: seq<byte>)
    requires 0x1_0000 <= c as int
    ensures DecodeChar(EncodeChar(c) + rest) == Some(Decoded(c, 4))
  {
    var cp := c as int;
    var b := EncodeChar(c) + rest;
    assert b[0] == 0xF0 + cp / 0x4_0000 && b[1] == 0x80 + cp / 0x1000 % 0x40;
    assert b[2] == 0x80 + cp / 0x40 % 0x40 && b[3] == 0x80 + cp % 0x40;
    assert cp / 0x1000 == (cp / 0x4_0000) * 0x40 + cp / 0x1000 % 0x40;
    assert cp / 0x40 == (cp / 0x1000) * 0x40 + cp / 0x40 % 0x40;
    assert cp == (cp / 0x40) * 0x40 + cp % 0x40;
  }

  /** Round trip: `s.encode().decode() == s` for every string. */
  lemma {:induction false} DecodeEncode(s: string)
    ensures Decode(Encode(s)) == Some(s)
  {
    if s != [] {
      var head := EncodeChar(s[0]);
      var tail := Encode(s[1..]);
      DecodeEncodeChar(s[0], tail);
      assert (head + tail)[|head|..] == tail;
      DecodeEncode(s[1..]);
      assert [s[0]] + s[1..] == s;
    }
  }

  /**
   * The character count of a string equals the byte count of its encoding
   * exactly when the string is ASCII; then the encoding is the code points.
   */
  lemma {:induction false} EncodeLength(s: string)
    ensures |Encode(s)| == |s| <==> IsAscii(s)
    ensures IsAscii(s) ==> forall i | 0 <= i < |s| :: Encode(s)[i] == s[i] as int
  {
    if s != [] {
      EncodeLength(s[1..]);
      assert IsAscii(s) <==> s[0] as int < 0x80 && IsAscii(s[1..]) by {
        if IsAscii(s) {
          forall i | 0 <= i < |s[1..]| ensures s[1..][i] as int < 0x80 {
            assert s[1..][i] == s[i + 1];
          }
        }
        if s[0] as int < 0x80 && IsAscii(s[1..]) {
          forall i | 0 <= i < |s| ensures s[i] as int < 0x80 {
            if i > 0 { assert s[i] == s[1..][i - 1]; }
          }
        }
      }
      if IsAscii(s) {
        forall i | 0 <= i < |s| ensures Encode(s)[i] == s[i] as int {
          if i > 0 { assert s[i] == s[1..][i - 1]; }
        }
      }
    }
  }

  /** A well-formed character at the head of `b` is encoded as exactly the bytes it was decoded from. */
  lemma EncodeDecodeChar(b: seq<byte>)
    requires |b| > 0 && DecodeChar(b).Some?
    ensures DecodeChar(b).value.length <= |b|
    ensures EncodeChar(DecodeChar(b).value.c) == b[..DecodeChar(b).value.length]
  {
    var b0 := b[0] as int;
    if b0 < 0x80 {
      assert b[..1] == [b[0]];
    } else if b0 <= 0xDF {
      EncodeDecodeTwo(b);
    } else if b0 <= 0xEF {
      EncodeDecodeThree(b);
    } else {
      EncodeDecodeFour(b);
    }
  }

  lemma EncodeDecodeTwo(b: seq<byte>)
    requires |b| >= 2 && 0xC2 <= b[0] <= 0xDF && IsContinuation(b[1])
    ensures DecodeChar(b).Some? && DecodeChar(b).value.length == 2
    ensures EncodeChar(DecodeChar(b).value.c) == b[..2]
  {
    var x, y := b[0] as int - 0xC0, b[1] as int - 0x80;
    var cp := x * 0x40 + y;
    assert DecodeChar(b) == Some(Decoded(cp as char, 2));
    assert 0x80 <= cp < 0x800;
    assert cp / 0x40 == x && cp % 0x40 == y;
    assert b[..2] == [b[0], b[1]];
  }

  lemma EncodeDecodeThree(b: seq<byte>)
    requires |b| > 0 && 0xE0 <= b[0] <= 0xEF && DecodeChar(b).Some?
    ensures |b| >= 3 && DecodeChar(b).value.length == 3
    ensures EncodeChar(DecodeChar(b).value.c) == b[..3]
  {
    var x, y, z := b[0] as int - 0xE0, b[1] as int - 0x80, b[2] as int - 0x80;
    var cp := x * 0x1000 + y * 0x40 + z;
    assert DecodeChar(b) == Some(Decoded(cp as char, 3));
    assert 0x800 <= cp < 0x1_0000;
    assert cp / 0x40 == x * 0x40 + y && cp % 0x40 == z;
    assert cp / 0x1000 == x && (x * 0x40 + y) % 0x40 == y;
    assert b[..3] == [b[0], b[1], b[2]];
  }

  lemma EncodeDecodeFour(b: seq<byte>)
    requires |b| > 0 && 0xF0 <= b[0] && DecodeChar(b).Some?
    ensures |b| >= 4 && DecodeChar(b).value.length == 4
    ensures EncodeChar(DecodeChar(b).value.c) == b[..4]
  {
    var w, x := b[0] as int - 0xF0, b[1] as int - 0x80;
    var y, z := b[2] as int - 0x80, b[3] as int - 0x80;
    var cp := w * 0x4_0000 + x * 0x1000 + y * 0x40 + z;
    assert DecodeChar(b) == Some(Decoded(cp as char, 4));
    assert 0x1_0000 <= cp;
    assert cp / 0x40 == w * 0x1000 + x * 0x40 + y && cp % 0x40 == z;
    assert cp / 0x1000 == w * 0x40 + x && (w * 0x40 + x) % 0x40 == x;
    assert (w * 0x1000 + x * 0x40 + y) % 0x40 == y;
    assert cp / 0x4_0000 == w;
    assert b[..4] == [b[0], b[1], b[2], b[3]];
  }

  /** Round trip: whatever `b.decode()` accepts, encoding the result gives `b` back. */
  lemma {:induction false} EncodeDecode(b: seq<byte>)
    requires Decode(b).Some?
    ensures Encode(Decode(b).value) == b
    decreases |b|
  {
    if b != [] {
      var d := DecodeChar(b).value;
      EncodeDecodeChar(b);
      var rest := Decode(b[d.length..]).value;
      EncodeDecode(b[d.length..]);
      var s := [d.c] + rest;
      assert s[0] == d.c && s[1..] == rest;
      assert b[..d.length] + b[d.length..] == b;
    }
  }
}

=== FILE: wrappers.dfy ===
/** Optional values and results with an error, used for the codec's failure paths. */
module Wrappers {

  datatype Option<+T> = None | Some(value: T)

  datatype Result<+R, +E> = Success(value: R) | Failure(error: E)
}
